=== FILE: README.md ===
# MSC Nastran HDF5 result writer — a Dafny model

This project models the core of `msc_h5_writer.py`. That file converts a
pyNastran OP2 result model into MSC Nastran's native HDF5 layout. The model
covers:

- **The domain registry** (`_Domains`). Every distinct (subcase, time step)
  pair a builder asks about gets a dense 1-based DOMAIN_ID, in first-seen
  order. Each new ID also gets one DOMAINS row: ANALYSIS from the analysis
  code, MODE from the mode array, and TIME_FREQ_EIGR from the eigenvalue
  array or else the time array.
- **The four table builders** (`_write_nodal`, `_write_plate_stress`,
  `_write_1d_result`, `_write_solid_stress`). Each walks the subcases in
  ascending order and every time step of each. It looks up the step's
  DOMAIN_ID and packs the step into a block of records. It then appends the
  block together with an INDEX entry (DOMAIN_ID, POSITION, LENGTH).
- **The packing rules.** Nodal vectors fill X..RZ from the first
  `min(ncols, 6)` columns. Centre-only plates merge a top and a bottom
  surface row per element. 1-D stresses, strains and forces fill fields
  through a field-to-column map and skip columns the data lacks. Solids
  carry a nested SS array of npts sample points plus NODEF.
- **The column maps and solid point counts.** These are `*_COLS` and
  HEXA/PENTA/TETRA = 9/7/5.
- **`_save`.** It writes nothing for an empty block list. Otherwise it
  writes the concatenated table and its `/INDEX` twin.
- **The driver `write_msc_h5`.** It visits 29 tables in a fixed order:
  seven nodal, nine STRESS, nine STRAIN, four ELEMENT_FORCE. It skips every
  table whose result dictionary is empty or missing, and threads one
  registry through all builders. At the end it writes
  `/NASTRAN/RESULT/DOMAINS` only if some domain was registered.

Modules, one file each:

| module | file | contents |
|---|---|---|
| `Seqs` | `seqs.dfy` | Option, concatenation, chunking (numpy reshape), arange, sorted keys |
| `Domains` | `domains.dfy` | the registry, `GetId`, `ToArray`, reference definition `FirstCalls` |
| `Op2` | `op2.dfy` | the result objects the writer reads |
| `Records` | `records.dfy` | record layouts, column maps, the four packing rules |
| `Index` | `index.dfy` | the INDEX accumulator and what a consistent INDEX says about its table |
| `Builders` | `builders.dfy` | the builder loop nest as a schedule of steps, folded by `Run` |
| `Writer` | `writer.dfy` | `_save`, the plan of tables, the driver, and file-level theorems |

**The model is functional.** The registry is a value that every builder
takes and returns, and the HDF5 file is a map from dataset paths to
datasets. The theorems about the driver are stated for any list of tables
with pairwise distinct paths. `Writer.PlanDistinct` shows that the real
plan has that property, so the theorems apply to `WriteMscH5`.

**Behaviour of `msc_h5_writer.py` worth noting:**

- ANALYSIS is `int(analysis_code)` whenever the result has that attribute,
  zero included. Otherwise it is the zero of `np.zeros`.
- MODE is set whenever the result has a `modes` array long enough for the
  step, whatever the kind of analysis.
- EIGI and STEP are never set, so they stay 0.
- The plate and solid builders index columns 0..3 and 0..5 directly, so
  they need at least 4 or 6 columns, as `WellFormed` states. Only the
  nodal and 1-D builders skip absent columns.
- The writer produces result tables and DOMAINS only: no geometry,
  property or material tables, no grid-point forces, no beam or
  plate-corner tables and no eigenvalue summary.

## Model

| member | source | states |
|---|---|---|
| Domains.NewRecord | msc_h5_writer.py:169-186 | A new DOMAINS row has the given ID and SUBCASE. ANALYSIS is the analysis code if present, else 0. MODE is modes[itime] when that exists, else 0. TIME_FREQ_EIGR is eigrs[itime] when that exists, else _times[itime] when that exists, else 0. Every other field is 0. |
| Domains.GetId | msc_h5_writer.py:161-189 | After the call the key is registered and maps to the returned ID. The registry is unchanged exactly when the key was already known. Known keys keep their IDs, and the key set grows by exactly this key. Rows are only appended. A new key gets ID len(records)+1 and one new row built by NewRecord. |
| Domains.GetIdIdempotent | msc_h5_writer.py:162-164 | Asking again for a key just registered returns the same ID and leaves the registry unchanged, whatever metadata the second call brings. |
| Domains.GetIdValid | msc_h5_writer.py:161-189 | get_id preserves the invariant: row i has ID i+1, every key's ID names a row of its subcase, and no two keys share an ID. |
| Domains.RegisterAllValid | msc_h5_writer.py:161-189 | Any sequence of get_id calls preserves the invariant. |
| Domains.RegisterAllKeepsIds | msc_h5_writer.py:163-167 | Whatever calls follow, an existing key keeps its ID and the existing DOMAINS rows stay a prefix: IDs are never reassigned. |
| Domains.FirstSeenOrder | msc_h5_writer.py:161-189 | From an empty registry, any call sequence yields the registry described by `FirstCalls`, the reference list of first occurrences. Its keys are exactly the keys called. The key first seen i-th has ID i+1, and its row is NewRecord of its first call. |
| Domains.FirstSeenIds | msc_h5_writer.py:166-167 | Density, read back: the registered keys are exactly the keys called, the IDs are exactly 1..N with N the number of distinct keys, and first occurrences have pairwise distinct keys. |
| Domains.FirstCallsKeys | msc_h5_writer.py:162-164 | The reference list of first occurrences mentions exactly the keys of all calls. |
| Domains.ToArray | msc_h5_writer.py:191-197 | to_array copies every registered row, in order (an empty table when there are none). For a valid registry, row i has ID i+1 and every key's ID names a row of that key's subcase. |
| Domains.ValidResolves | msc_h5_writer.py:191-197 | In a valid registry, each key's ID d names row d of to_array's table, whose ID is d and whose SUBCASE is the key's. So that table is non-empty whenever a key is registered. |
| Seqs.SortedKeys | msc_h5_writer.py:223 | sorted(result_dict) lists exactly the dictionary's subcases, strictly ascending. |
| Seqs.SortedKeysUnique | msc_h5_writer.py:223 | Any strictly ascending listing of exactly the dictionary's keys is sorted(result_dict): the subcase order is determined. |
| Records.BarStressColsPositional | msc_h5_writer.py:120-125 | BAR_STRESS_COLS sends the i-th float field of BAR_STRESS_DTYPE to data column i. |
| Records.BarStressFieldsDistinct | msc_h5_writer.py:50-57 | BAR_STRESS_DTYPE repeats no float field name, so its column map fits the layout. |
| Records.OtherColsPositional | msc_h5_writer.py:127-147 | The ROD/BUSH stress maps and the BAR/ROD/BUSH/QUAD4 force maps each send the i-th float field of their layout to column i, over a layout without repeated names. |
| Records.PositionalFits | msc_h5_writer.py:120-147 | A positional map over a layout without repeated names fits the layout: distinct fields, every field in the layout. |
| Records.FillFields | msc_h5_writer.py:322-324 | After the column-map loop, each mapped field holds its column when that column exists and otherwise its initial value. Unmapped fields keep their initial values, and no field is added or lost. |
| Records.NodalBlock | msc_h5_writer.py:225-237 | One record per node, with the node's ID and DOMAIN_ID did. Field c of X..RZ holds data[it][node][c] when c < ncols, else 0. |
| Records.PlateBlock | msc_h5_writer.py:259-284 | One record per element, len(element_node)/rpe records with rpe = 2·nnodes. Element e's EID comes from element_node row e·rpe. FD1..XY1 are columns 0..3 of that row (top), FD2..XY2 columns 0..3 of the next row (bottom), and DOMAIN_ID is did. |
| Records.OneDBlock | msc_h5_writer.py:306-325 | One record per element ID (`element`, else the first column of `element_node`), tagged did. A mapped field holds its column when the data has it, else 0. Every unmapped field of the layout is 0. |
| Records.Nodef | msc_h5_writer.py:342-343 | The NODEF table {9:8, 7:6, 5:4} with default npts−1 equals npts−1 for every point count. |
| Records.SolidBlock | msc_h5_writer.py:349-368 | One record per element, len(element_node)/npts records. EID is element_node row e·npts, CID is 0, CTYPE is GRID, NODEF is npts−1. SS has npts points, and DOMAIN_ID is did. |
| Records.SolidBlockPoint | msc_h5_writer.py:361-367 | SS point p of element e holds the GRID of element_node row e·npts+p and components 0..5 of data row e·npts+p as X, Y, Z, TXY, TYZ, TZX. |
| Records.Block | msc_h5_writer.py:237 | Whichever packing rule a table uses, every row of the block carries the step's DOMAIN_ID. |
| Index.EmitConsistent | msc_h5_writer.py:239-241 | Appending a block whose rows carry did, with entry (did, pos, n) and pos += n, keeps the accumulator consistent. Entry k starts where block k starts in the concatenation, spans its rows and names its ID. |
| Index.ConsistentTiles | msc_h5_writer.py:239-243 | A consistent INDEX tiles the saved table: lengths are non-negative, each POSITION is the sum of the earlier LENGTHs, and the LENGTHs add up to the row count. |
| Index.Disjoint | msc_h5_writer.py:239-241 | In a tiling, an earlier entry ends no later than a later one starts: ranges never overlap. |
| Index.Covers | msc_h5_writer.py:239-241 | In a tiling, every row of the table lies in some entry's range. |
| Index.ConsistentIndexed | msc_h5_writer.py:237-241 | A consistent INDEX tiles the table, and every row inside an entry's range carries that entry's DOMAIN_ID. |
| Index.RowsTagged | msc_h5_writer.py:237-241 | Row j of entry k's range is row j of block k and carries entry k's DOMAIN_ID. |
| Builders.Schedule | msc_h5_writer.py:223-229 | Every visited step belongs to a dictionary subcase, uses that subcase's result, is not skipped and exists. Steps come in (subcase, step) order. |
| Builders.ScheduleMembers | msc_h5_writer.py:303-315 | A (subcase, step) is visited iff the subcase is in the dictionary, is not skipped (the 1-D builder skips a subcase with neither `element` nor `element_node`) and has that step. |
| Builders.ScheduleNonEmpty | msc_h5_writer.py:223-229 | A builder visits some (subcase, step) iff its dictionary has a subcase that is not skipped and has at least one step. |
| Builders.ScheduleKeysDistinct | msc_h5_writer.py:223-230 | The get_id keys a builder asks for are pairwise distinct. |
| Builders.RunConsistent | msc_h5_writer.py:229-241 | The loop keeps the (rows_list, idx_list, pos) accumulator consistent. |
| Builders.RunRegistry | msc_h5_writer.py:229-230 | After the loop, the registry is the one the loop's get_id calls produce in order. |
| Builders.RunEntry | msc_h5_writer.py:229-241 | Block and entry i of the loop are step i packed with the DOMAIN_ID the final registry holds for its (subcase, step). |
| Builders.RunKeepsPrefix | msc_h5_writer.py:239-240 | The loop only appends blocks and INDEX entries. |
| Builders.BuildTable | msc_h5_writer.py:218-243 | A builder call yields one block and one INDEX entry per visited (subcase, step). The same loop nest is repeated in the plate (250-291), 1-D (298-331) and solid (338-374) builders. |
| Builders.BuildTableEntry | msc_h5_writer.py:218-374 | Block i and INDEX entry i of a builder call are visited step i, packed with the DOMAIN_ID the registry assigns to its (subcase, step). This holds for the same loop nest in all four builders. |
| Builders.BuildTableShape | msc_h5_writer.py:218-243 | After a builder call, the registry is the input registry after the builder's get_id calls, the accumulator is consistent, and its INDEX tiles the rows. |
| Builders.FreshTableIds | msc_h5_writer.py:166-167 | The first table written into an empty registry gives its i-th INDEX entry DOMAIN_ID i+1. |
| Writer.Save | msc_h5_writer.py:204-211 | With no blocks the file is unchanged. Otherwise it holds the concatenated blocks at the table's path and the entries at its /INDEX path. Every other dataset is untouched. |
| Writer.Plan | msc_h5_writer.py:403-465 | The driver visits 29 tables. |
| Writer.PlanPathsDistinct | msc_h5_writer.py:403-465 | No two tables of the plan share a path, so no create_dataset call meets an existing dataset. |
| Writer.PlanDistinct | msc_h5_writer.py:403-465 | The plan satisfies the distinct-paths premise of the file-level theorems. |
| Writer.EmptySchedule | msc_h5_writer.py:412-415 | An empty dictionary visits nothing, so skipping it changes neither file nor registry. |
| Writer.WriteJobOnly | msc_h5_writer.py:412-465 | One table step adds at most its own table and /INDEX. |
| Writer.WriteJobFrame | msc_h5_writer.py:412-465 | One table step leaves every other dataset as it was. |
| Writer.WriteJobTable | msc_h5_writer.py:412-465 | One table step writes its table and /INDEX iff the builder collected a block, holding exactly the builder's rows and entries. This is the same at all five `if rdict:` dispatch sites (412-415, 424-427, 436-440, 448-452, 461-465). |
| Writer.WriteJobKeepsIds | msc_h5_writer.py:412-415 | A table step keeps every DOMAIN_ID already assigned, and DOMAINS rows only grow. |
| Writer.WriteJobValid | msc_h5_writer.py:412-415 | A table step keeps the shared registry valid. |
| Writer.WriteJobRecords | msc_h5_writer.py:412-415 | After a table step the registry has rows iff it had rows before or the step visited a (subcase, step). |
| Writer.WriteOnly | msc_h5_writer.py:400-465 | The first m table steps write only their own tables and /INDEX twins. |
| Writer.NotYetWritten | msc_h5_writer.py:400-465 | Before table q's step, its table and /INDEX paths are free. |
| Writer.WriteTable | msc_h5_writer.py:400-465 | After the first m steps, each earlier table q holds exactly what its builder produced from the registry its predecessors left, and exists iff a block was collected. |
| Writer.WritePathKept | msc_h5_writer.py:400-465 | The steps after table q leave its table dataset and its /INDEX dataset as table q wrote them: present in the same cases, with the same contents, because every later table writes under its own distinct path. |
| Writer.WriteKeepsIds | msc_h5_writer.py:398-465 | DOMAIN_IDs assigned by the first tables survive all later ones. |
| Writer.WriteValid | msc_h5_writer.py:398-465 | The registry threaded through the driver stays valid. |
| Writer.WriteRegistersAny | msc_h5_writer.py:398-465 | After m table steps the registry has a domain iff one of those tables visited a (subcase, step). |
| Writer.FileTable | msc_h5_writer.py:400-470 | In the finished file, each table and its /INDEX exist iff its builder visited some (subcase, step). They then hold that builder's rows and entries, built with the registry its predecessors left. |
| Writer.FileOnlyJobs | msc_h5_writer.py:400-470 | The file holds nothing but the plan's tables, their /INDEX twins and DOMAINS. |
| Writer.FileTableIndexed | msc_h5_writer.py:204-211 | A written table's INDEX has one entry per visited (subcase, step) and tiles the table, and every row inside an entry's range carries that entry's DOMAIN_ID. |
| Writer.JobEntryId | msc_h5_writer.py:229-240 | INDEX entry k of table q names the ID the registry holds, once q is done, for visited step k's (subcase, step). |
| Writer.FileIndexResolves | msc_h5_writer.py:467-470 | Every INDEX entry resolves in DOMAINS: its DOMAIN_ID d names row d, whose ID is d and whose SUBCASE is the subcase of the entry's step. |
| Writer.FileDomains | msc_h5_writer.py:467-470 | DOMAINS is written iff some table was written. It then holds the registry's rows, numbered 1, 2, 3, … |
| Writer.FileDomainsContent | msc_h5_writer.py:467-470 | DOMAINS is written iff the final registry holds a row, and then it holds exactly those rows, numbered from 1. |
| Writer.WriteRegistry | msc_h5_writer.py:398-465 | The registry threaded through the first m tables equals the one obtained by replaying, from an empty registry, every get_id call of those tables' builders in visiting order. |
| Writer.WriteDescribes | msc_h5_writer.py:161-167 | After the whole conversion, the registry numbers exactly the distinct (subcase, step) pairs any builder asked about, 1, 2, … in first-seen order across tables, each with the row of its first call. |
| Writer.FileDomainsFirstSeen | msc_h5_writer.py:467-470 | DOMAINS is written iff some builder called get_id. Row i is then the row get_id built for the i-th distinct (subcase, step) of the whole conversion, with ID i+1. |
| Writer.FileTablesScheduled | msc_h5_writer.py:412-465 | Some table is written iff some table's dictionary has a subcase, not skipped, with at least one step. |
| Writer.WriteThreads | msc_h5_writer.py:398-465 | The registry after the first m tables is each table's get_id calls applied, table by table, to the registry the tables before it left: one registry is threaded through all builders. |

## Left out

- HDF5 and numpy byte layouts are not modelled: dtype widths, endianness, and the fixed-width `b'GRID'` CTYPE encoding. Records are Dafny datatypes, and the CTYPE value is the string GRID.
- 64-bit integer width: IDs, positions and lengths are unbounded integers. Realistic models are far below 2^63.
- Floating point: component values are only copied, so they are modelled as reals.
- `int(analysis_code)` and `int(modes[...])`: the analysis code and modes are taken as integers already. A present but `None` analysis code, which raises in the source, is not modelled.
- Result attributes that are present but `None` read the same as absent ones. This matches the source for `element`, `element_node`, `modes`, `eigrs` and `_times`, and for an empty result dictionary.
- A plate result whose `nnodes_per_element` is missing or `None` and whose `nnodes` is present but `None` raises a TypeError at msc_h5_writer.py:262 (`2 * None`). `Op2.PlateNodes` reads that `nnodes` as absent, i.e. as 1.
- The nodal attributes (`op2.displacements` and the rest) are read without a default in the source, so a missing one raises. In the model a missing one reads as an empty dictionary, and the table is skipped.
- numpy shape and index errors are not modelled as error results. The preconditions (`Records.WellFormed`, `Builders.DictWellFormed`, `Writer.JobsWellFormed`) state the shapes pyNastran's result objects have. These are stronger than what numpy needs:
  - the step data has one row per node, element_node row or element id, each with ncols components;
  - there are at least 4 plate or 6 solid columns when there are steps;
  - the column maps name existing fields;
  - a plate with steps has an element_node count that is a multiple of the rows per element, and nnodes at least 1; nnodes is never 0, since line 263 divides by it;
  - the solid element_node count is always a multiple of npts (line 350), and a solid result with steps has at least one element_node row, since the reshape at line 354 cannot infer a width from zero elements.
- The source also accepts some inputs outside those shapes. These are not modelled. The list below gives examples and is not complete:
  - a plate with steps and 2 ≤ len(element_node) < rpe: `eids` (line 264) and `top_i` (line 269) have one entry each and broadcast into `np.zeros(0)`, giving an empty block and an INDEX entry of length 0 (lines 262-284);
  - a plate whose step data has a row count other than len(element_node): lines 269-272 read only rows `top_i` and `top_i + 1`, so any data with more than max(`bot_i`) rows goes through. For example, rpe 4, 8 element_node rows and 6 data rows;
  - a solid whose step data has any row count and width for which the reshape at line 354 to (n_elem, npts, -1) succeeds with a width of at least 6. For example, 2·len(element_node) rows of 6 columns: the source then writes sample points taken from the wrong rows;
  - a nodal or 1-D step with a single data row: the row broadcasts over every node or element (lines 236, 323-324).
- `Op2.Rectangular`: only its equal-width half holds of every numpy array. Its row count is pyNastran's shape, and the examples above break it. The model states the equal-width half because its data is nested sequences.
- The file is opened fresh (`'w'`), so create_dataset never meets an existing path (`Writer.PlanPathsDistinct`). Its failure mode is not modelled.
- The `log` callback, the summary log line, file opening and closing, and h5py I/O are left out. The file is a map from paths to datasets.
- The rendered path strings are left out. Paths are constructors, so each table and its `/INDEX` twin are distinct by construction.
- The other files of the repository are not part of this model: the OP2 reader glue, the GUI, the branch analyser, the sample generator and the usage example.
- Writer.Plan: states the number of tables only. Their paths, attributes and packing rules are the plan's definition, and `Writer.PlanPathsDistinct` states what the driver relies on.
- Records.Block: states only the DOMAIN_ID tagging. The per-category contents are stated by `NodalBlock`, `PlateBlock`, `OneDBlock`, `SolidBlock` and `SolidBlockPoint`.

=== FILE: builders.dfy ===
/** The table builders (_write_nodal, _write_plate_stress, _write_1d_result,
    _write_solid_stress) share one shape: for each subcase in ascending
    order and each of its time steps, look up the DOMAIN_ID of (subcase,
    step), pack the step into a block of records and append the block and
    its INDEX entry. The model flattens the loop nest into a schedule of
    steps and folds over it. */
module Builders {
  import opened Seqs
  import opened Domains
  import opened Op2
  import opened Records
  import opened Index

  /** One iteration of the inner loop: subcase sc, time step it, its result. */
  datatype Step = Step(subcase: int, itime: nat, res: ResultObject)

  /** (subcase, step) order: subcases ascending, steps ascending within one. */
  predicate Before(a: Step, b: Step)
  {
    a.subcase < b.subcase || (a.subcase == b.subcase && a.itime < b.itime)
  }

  predicate Ordered(s: seq<Step>)
  {
    forall i, j :: 0 <= i < j < |s| ==> Before(s[i], s[j])
  }

  /** The steps of one subcase, or none when the builder skips it: every
      step is one of this subcase's, in range, and they come in loop order. */
  function StepsOf(cat: Category, sc: int, res: ResultObject): (s: seq<Step>)
    ensures forall i :: 0 <= i < |s| ==>
              s[i].subcase == sc && s[i].res == res && !Skipped(cat, res) && s[i].itime < |res.data|
    ensures Ordered(s)
  {
    if Skipped(cat, res) then [] else seq(|res.data|, t requires 0 <= t < |res.data| => Step(sc, t, res))
  }

  /** The loop nest over the given subcase order. */
  function ScheduleOver(cat: Category, dict: map<int, ResultObject>, keys: seq<int>): (s: seq<Step>)
    requires forall i :: 0 <= i < |keys| ==> keys[i] in dict
    requires StrictlyIncreasing(keys)
    ensures forall i :: 0 <= i < |s| ==>
              && s[i].subcase in keys
              && s[i].res == dict[s[i].subcase]
              && !Skipped(cat, s[i].res)
              && s[i].itime < |s[i].res.data|
    ensures Ordered(s)
    decreases |keys|
  {
    if |keys| == 0 then []
    else
      var head := StepsOf(cat, keys[0], dict[keys[0]]);
      var rest := ScheduleOver(cat, dict, keys[1..]);
      LaterSubcases(keys, rest);
      ConcatOrdered(head, rest);
      head + rest
  }

  /** Steps whose subcases come after the first key come after it. */
  lemma LaterSubcases(keys: seq<int>, rest: seq<Step>)
    requires StrictlyIncreasing(keys) && |keys| > 0
    requires forall i :: 0 <= i < |rest| ==> rest[i].subcase in keys[1..]
    ensures forall i :: 0 <= i < |rest| ==> keys[0] < rest[i].subcase
  {
    forall i | 0 <= i < |rest|
      ensures keys[0] < rest[i].subcase
    {
      var m :| 0 <= m < |keys[1..]| && keys[1..][m] == rest[i].subcase;
      assert keys[m + 1] == rest[i].subcase;
    }
  }

  lemma ConcatOrdered(a: seq<Step>, b: seq<Step>)
    requires Ordered(a) && Ordered(b)
    requires forall i, j :: 0 <= i < |a| && 0 <= j < |b| ==> Before(a[i], b[j])
    ensures Ordered(a + b)
  {
    var s := a + b;
    forall i, j | 0 <= i < j < |s|
      ensures Before(s[i], s[j])
    {
      if j < |a| {
        assert s[i] == a[i] && s[j] == a[j];
      } else if i >= |a| {
        assert s[i] == b[i - |a|] && s[j] == b[j - |a|];
      } else {
        assert s[i] == a[i] && s[j] == b[j - |a|];
      }
    }
  }

  /** The builder's schedule: sorted(result_dict) x range(ntimes), with the
      1-D/force builder's skipped subcases left out. */
  function Schedule(cat: Category, dict: map<int, ResultObject>): (s: seq<Step>)
    ensures forall i :: 0 <= i < |s| ==>
              && s[i].subcase in dict
              && s[i].res == dict[s[i].subcase]
              && !Skipped(cat, s[i].res)
              && s[i].itime < |s[i].res.data|
    ensures Ordered(s)
  {
    ScheduleOver(cat, dict, SortedKeys(dict))
  }

  /** Every (subcase, step) the loop nest visits is in the schedule. */
  lemma {:induction false} ScheduleOverComplete(cat: Category, dict: map<int, ResultObject>, keys: seq<int>, sc: int, t: nat)
    requires forall i :: 0 <= i < |keys| ==> keys[i] in dict
    requires StrictlyIncreasing(keys)
    requires sc in keys && !Skipped(cat, dict[sc]) && t < |dict[sc].data|
    ensures Step(sc, t, dict[sc]) in ScheduleOver(cat, dict, keys)
    decreases |keys|
  {
    var head := StepsOf(cat, keys[0], dict[keys[0]]);
    var rest := ScheduleOver(cat, dict, keys[1..]);
    assert ScheduleOver(cat, dict, keys) == head + rest;
    if keys[0] == sc {
      assert head[t] == Step(sc, t, dict[sc]);
    } else {
      var m :| 0 <= m < |keys| && keys[m] == sc;
      assert m > 0 && keys[1..][m - 1] == sc;
      ScheduleOverComplete(cat, dict, keys[1..], sc, t);
    }
  }

  /** The schedule holds exactly the (subcase, step) pairs of the subcases
      the builder does not skip, and since it is Ordered, each only once. */
  lemma ScheduleMembers(cat: Category, dict: map<int, ResultObject>, st: Step)
    ensures st in Schedule(cat, dict) <==>
              st.subcase in dict && st.res == dict[st.subcase] && !Skipped(cat, st.res) && st.itime < |st.res.data|
  {
    if st.subcase in dict && st.res == dict[st.subcase] && !Skipped(cat, st.res) && st.itime < |st.res.data| {
      ScheduleOverComplete(cat, dict, SortedKeys(dict), st.subcase, st.itime);
    }
  }

  /** Some subcase of the dictionary has a step the builder does not skip. */
  predicate Visits(cat: Category, dict: map<int, ResultObject>)
  {
    exists sc :: sc in dict && !Skipped(cat, dict[sc]) && |dict[sc].data| > 0
  }

  /** The schedule is non-empty iff some subcase has a step the builder
      does not skip. */
  lemma ScheduleNonEmpty(cat: Category, dict: map<int, ResultObject>)
    ensures |Schedule(cat, dict)| > 0 <==> Visits(cat, dict)
  {
    var s := Schedule(cat, dict);
    if |s| > 0 {
      ScheduleMembers(cat, dict, s[0]);
      assert s[0] in s;
    }
    if Visits(cat, dict) {
      var sc :| sc in dict && !Skipped(cat, dict[sc]) && |dict[sc].data| > 0;
      ScheduleMembers(cat, dict, Step(sc, 0, dict[sc]));
    }
  }

  // ---------------------------------------------------------------------
  // The fold: get_id, pack, append
  // ---------------------------------------------------------------------

  /** The registry and the table accumulator after some steps. */
  datatype Built = Built(registry: Registry, acc: Acc)

  /** A step can be packed: its result has the shapes its packing rule
      needs, it is not a skipped subcase and the step exists. */
  ghost predicate Packs(cat: Category, st: Step)
  {
    WellFormed(cat, st.res) && !Skipped(cat, st.res) && st.itime < |st.res.data|
  }

  ghost predicate Packable(cat: Category, steps: seq<Step>)
  {
    forall i :: 0 <= i < |steps| ==> Packs(cat, steps[i])
  }

  function KeyOf(st: Step): DomainKey
  {
    DomainKey(st.subcase, st.itime)
  }

  /** The get_id calls the steps make, in order. */
  function CallsOf(steps: seq<Step>): (calls: seq<Call>)
    ensures |calls| == |steps|
    ensures forall i :: 0 <= i < |steps| ==> calls[i] == Call(KeyOf(steps[i]), steps[i].res.meta)
  {
    seq(|steps|, i requires 0 <= i < |steps| => Call(KeyOf(steps[i]), steps[i].res.meta))
  }

  /** The inner loop body for one step: get_id for the step's (subcase,
      step), then pack the step with that ID and append the block. */
  function Advance(cat: Category, prev: Built, st: Step): Built
    requires Packs(cat, st)
  {
    var l := GetId(prev.registry, st.subcase, st.itime, st.res.meta);
    Built(l.registry, Emit(prev.acc, l.domainId, Block(cat, st.res, st.itime, l.domainId)))
  }

  /** Block k and INDEX entry j of a build are step st packed with the ID
      the registry holds for st's (subcase, step), and the entry names that
      ID. */
  ghost predicate EntryAt(cat: Category, b: Built, st: Step, j: int, k: int)
  {
    && Packs(cat, st)
    && KeyOf(st) in b.registry.ids
    && 0 <= j < |b.acc.index| && 0 <= k < |b.acc.blocks|
    && b.acc.index[j].domainId == b.registry.ids[KeyOf(st)]
    && b.acc.blocks[k] == Block(cat, st.res, st.itime, b.registry.ids[KeyOf(st)])
  }

  /** The block a step appends is the step packed with the ID the registry
      now holds for it, and its INDEX entry names that ID. */
  lemma AdvanceLast(cat: Category, prev: Built, st: Step)
    requires Packs(cat, st)
    ensures EntryAt(cat, Advance(cat, prev, st), st, |prev.acc.index|, |prev.acc.blocks|)
  {
  }

  /** A step keeps the IDs handed out and the blocks and entries appended
      before it. */
  lemma AdvanceKeeps(cat: Category, prev: Built, st: Step, st0: Step, j: int, k: int)
    requires Packs(cat, st)
    requires EntryAt(cat, prev, st0, j, k)
    ensures EntryAt(cat, Advance(cat, prev, st), st0, j, k)
  {
  }

  /** The inner loop body applied to each step in turn. */
  function Run(cat: Category, steps: seq<Step>, reg: Registry, acc: Acc): (b: Built)
    requires Packable(cat, steps)
    ensures |b.acc.blocks| == |acc.blocks| + |steps|
    ensures |b.acc.index| == |acc.index| + |steps|
    decreases |steps|
  {
    if |steps| == 0 then Built(reg, acc)
    else Advance(cat, Run(cat, steps[..|steps| - 1], reg, acc), steps[|steps| - 1])
  }

  /** The fold keeps the accumulator consistent: every block is tagged
      with the ID its entry names. */
  lemma {:induction false} RunConsistent(cat: Category, steps: seq<Step>, reg: Registry, acc: Acc)
    requires Packable(cat, steps) && Consistent(acc)
    ensures Consistent(Run(cat, steps, reg, acc).acc)
    decreases |steps|
  {
    if |steps| > 0 {
      var front := steps[..|steps| - 1];
      var st := steps[|steps| - 1];
      RunConsistent(cat, front, reg, acc);
      var prev := Run(cat, front, reg, acc);
      var l := GetId(prev.registry, st.subcase, st.itime, st.res.meta);
      EmitConsistent(prev.acc, l.domainId, Block(cat, st.res, st.itime, l.domainId));
    }
  }

  /** The registry after the fold is the registry after the fold's get_id
      calls: packing never touches it. */
  lemma {:induction false} RunRegistry(cat: Category, steps: seq<Step>, reg: Registry, acc: Acc)
    requires Packable(cat, steps)
    ensures Run(cat, steps, reg, acc).registry == RegisterAll(reg, CallsOf(steps))
    decreases |steps|
  {
    if |steps| > 0 {
      var front := steps[..|steps| - 1];
      RunRegistry(cat, front, reg, acc);
      assert CallsOf(steps)[..|steps| - 1] == CallsOf(front);
    }
  }

  /** The fold over steps is the fold over all but the last step, then
      the last step. */
  lemma RunSnoc(cat: Category, steps: seq<Step>, reg: Registry, acc: Acc)
    requires Packable(cat, steps) && |steps| > 0
    ensures Run(cat, steps, reg, acc) == Advance(cat, Run(cat, steps[..|steps| - 1], reg, acc), steps[|steps| - 1])
  {
  }

  /** Block i of the fold is step i packed with the DOMAIN_ID the final
      registry holds for step i's (subcase, step), and INDEX entry i names
      that ID. */
  lemma {:induction false} RunEntry(cat: Category, steps: seq<Step>, reg: Registry, acc: Acc, i: nat, b: Built, j: int, k: int)
    requires Packable(cat, steps) && i < |steps| && b == Run(cat, steps, reg, acc)
    requires j == |acc.index| + i && k == |acc.blocks| + i
    ensures EntryAt(cat, b, steps[i], j, k)
    decreases |steps|, 1
  {
    if i < |steps| - 1 {
      RunEntryEarlier(cat, steps, reg, acc, i, b, j, k);
    } else {
      RunEntryLast(cat, steps, reg, acc, b, j, k);
    }
  }

  /** A step before the last one keeps the entry and block it appended. */
  lemma {:induction false} RunEntryEarlier(cat: Category, steps: seq<Step>, reg: Registry, acc: Acc, i: nat, b: Built, j: int, k: int)
    requires Packable(cat, steps) && i < |steps| - 1 && b == Run(cat, steps, reg, acc)
    requires j == |acc.index| + i && k == |acc.blocks| + i
    ensures EntryAt(cat, b, steps[i], j, k)
    decreases |steps|, 0
  {
    var front := steps[..|steps| - 1];
    var prev := Run(cat, front, reg, acc);
    RunSnoc(cat, steps, reg, acc);
    RunEntry(cat, front, reg, acc, i, prev, j, k);
    AdvanceKeeps(cat, prev, steps[|steps| - 1], front[i], j, k);
    assert steps[i] == front[i];
  }

  /** The last step's entry and block are the ones it appended. */
  lemma RunEntryLast(cat: Category, steps: seq<Step>, reg: Registry, acc: Acc, b: Built, j: int, k: int)
    requires Packable(cat, steps) && |steps| > 0 && b == Run(cat, steps, reg, acc)
    requires j == |acc.index| + |steps| - 1 && k == |acc.blocks| + |steps| - 1
    ensures EntryAt(cat, b, steps[|steps| - 1], j, k)
  {
    var prev := Run(cat, steps[..|steps| - 1], reg, acc);
    RunSnoc(cat, steps, reg, acc);
    assert j == |prev.acc.index| && k == |prev.acc.blocks|;
    AdvanceLast(cat, prev, steps[|steps| - 1]);
  }

  /** The fold only appends: blocks and INDEX entries accumulated before
      are kept as they are. */
  lemma {:induction false} RunKeepsPrefix(cat: Category, steps: seq<Step>, reg: Registry, acc: Acc)
    requires Packable(cat, steps)
    ensures acc.blocks <= Run(cat, steps, reg, acc).acc.blocks
    ensures acc.index <= Run(cat, steps, reg, acc).acc.index
    decreases |steps|
  {
    if |steps| > 0 {
      RunKeepsPrefix(cat, steps[..|steps| - 1], reg, acc);
    }
  }

  // ---------------------------------------------------------------------
  // One table
  // ---------------------------------------------------------------------

  /** Every result object of the dictionary has the shapes its packing
      rule needs. */
  ghost predicate DictWellFormed(cat: Category, dict: map<int, ResultObject>)
  {
    forall sc :: sc in dict ==> WellFormed(cat, dict[sc])
  }

  lemma SchedulePackable(cat: Category, dict: map<int, ResultObject>)
    requires DictWellFormed(cat, dict)
    ensures Packable(cat, Schedule(cat, dict))
  {
  }

  /** One builder call: the blocks, the INDEX entries and the registry after
      the whole loop nest over the dictionary. */
  function BuildTable(cat: Category, dict: map<int, ResultObject>, reg: Registry): (b: Built)
    requires DictWellFormed(cat, dict)
    ensures |b.acc.blocks| == |b.acc.index| == |Schedule(cat, dict)|
  {
    var s := Schedule(cat, dict);
    SchedulePackable(cat, dict);
    Run(cat, s, reg, EmptyAcc)
  }

  /** What a built table holds: INDEX entry i belongs to scheduled step i,
      names the registry's DOMAIN_ID for that (subcase, step), covers
      exactly the rows of block i, and block i is that step packed with
      that ID. */
  lemma BuildTableEntry(cat: Category, dict: map<int, ResultObject>, reg: Registry, i: nat)
    requires DictWellFormed(cat, dict) && i < |Schedule(cat, dict)|
    ensures EntryAt(cat, BuildTable(cat, dict, reg), Schedule(cat, dict)[i], i, i)
  {
    SchedulePackable(cat, dict);
    var s := Schedule(cat, dict);
    RunEntry(cat, s, reg, EmptyAcc, i, BuildTable(cat, dict, reg), i, i);
  }

  /** The INDEX of a built table tiles its rows, and the registry is the
      one the get_id calls of the schedule produce. */
  lemma BuildTableShape(cat: Category, dict: map<int, ResultObject>, reg: Registry)
    requires DictWellFormed(cat, dict)
    ensures var b := BuildTable(cat, dict, reg);
            && b.registry == RegisterAll(reg, CallsOf(Schedule(cat, dict)))
            && Consistent(b.acc)
            && Tiles(b.acc.index, |Rows(b.acc)|)
  {
    SchedulePackable(cat, dict);
    RunRegistry(cat, Schedule(cat, dict), reg, EmptyAcc);
    EmptyConsistent();
    RunConsistent(cat, Schedule(cat, dict), reg, EmptyAcc);
    ConsistentTiles(BuildTable(cat, dict, reg).acc);
  }

  /** The (subcase, step) pairs of a schedule are pairwise distinct. */
  lemma ScheduleKeysDistinct(cat: Category, dict: map<int, ResultObject>)
    ensures var s := Schedule(cat, dict);
            forall i, j :: 0 <= i < j < |s| ==> CallsOf(s)[i].key != CallsOf(s)[j].key
  {
    var s := Schedule(cat, dict);
    forall i, j | 0 <= i < j < |s|
      ensures CallsOf(s)[i].key != CallsOf(s)[j].key
    {
      assert Before(s[i], s[j]);
    }
  }

  /** The first table written into an empty registry numbers its domains
      1, 2, 3, ... in schedule order. */
  lemma FreshTableIds(cat: Category, dict: map<int, ResultObject>, i: nat)
    requires DictWellFormed(cat, dict) && i < |Schedule(cat, dict)|
    ensures var b := BuildTable(cat, dict, EmptyRegistry);
            i < |b.acc.index| && b.acc.index[i].domainId == i + 1
  {
    var s := Schedule(cat, dict);
    BuildTableEntry(cat, dict, EmptyRegistry, i);
    BuildTableShape(cat, dict, EmptyRegistry);
    ScheduleKeysDistinct(cat, dict);
    FirstCallsDistinct(CallsOf(s));
    FirstSeenIds(CallsOf(s));
    assert CallsOf(s)[i].key == KeyOf(s[i]);
  }
}

=== FILE: domains.dfy ===
/** The domain registry of the writer: every distinct (subcase, time step)
    pair that a result table asks about gets a dense 1-based DOMAIN_ID in
    the order the pairs are first seen, together with one row of the
    DOMAINS table describing it. The registry is an explicit value that
    every builder threads through (the source keeps it in one mutable
    object per conversion). */
module Domains {
  import opened Seqs

  datatype DomainKey = DomainKey(subcase: int, itime: nat)

  /** The per-step metadata a result object may carry: the analysis code,
      the mode numbers, the eigenvalues and the generic time/frequency
      column. Each is optional, as the source probes them with hasattr and
      getattr(..., None). */
  datatype StepMeta = StepMeta(
    analysisCode: Option<int>,
    modes: Option<seq<int>>,
    eigrs: Option<seq<real>>,
    times: Option<seq<real>>)

  /** One row of the DOMAINS table, field for field. */
  datatype DomainRecord = DomainRecord(
    id: int, subcase: int, step: int, analysis: int,
    timeFreqEigr: real, eigi: real, mode: int, designCycle: int,
    random: int, se: int, afpm: int, trmc: int, instance: int, moduleNo: int)

  /** The all-zero row the source starts from (np.zeros). */
  const ZeroDomain := DomainRecord(0, 0, 0, 0, 0.0, 0.0, 0, 0, 0, 0, 0, 0, 0, 0)

  /** The step-th entry of an optional per-step array, when there is one. */
  function At<T>(a: Option<seq<T>>, itime: nat): Option<T>
  {
    if a.Some? && itime < |a.value| then Some(a.value[itime]) else None
  }

  /** The DOMAINS row for a newly registered key: ID and SUBCASE from the
      arguments, ANALYSIS from the analysis code, MODE from the mode array,
      TIME_FREQ_EIGR from the eigenvalue array or else the time array;
      everything else keeps the zero of np.zeros. */
  function NewRecord(did: int, subcase: int, itime: nat, meta: StepMeta): (rec: DomainRecord)
    ensures rec.id == did && rec.subcase == subcase
    ensures rec.analysis == (if meta.analysisCode.Some? then meta.analysisCode.value else 0)
    ensures meta.modes.Some? && itime < |meta.modes.value| ==> rec.mode == meta.modes.value[itime]
    ensures (meta.modes.None? || itime >= |meta.modes.value|) ==> rec.mode == 0
    ensures meta.eigrs.Some? && itime < |meta.eigrs.value| ==> rec.timeFreqEigr == meta.eigrs.value[itime]
    ensures At(meta.eigrs, itime).None? && meta.times.Some? && itime < |meta.times.value| ==>
              rec.timeFreqEigr == meta.times.value[itime]
    ensures At(meta.eigrs, itime).None? && At(meta.times, itime).None? ==> rec.timeFreqEigr == 0.0
    ensures rec.(id := 0, subcase := 0, analysis := 0, mode := 0, timeFreqEigr := 0.0) == ZeroDomain
  {
    var rec := ZeroDomain.(id := did, subcase := subcase);
    var rec := if meta.analysisCode.Some? then rec.(analysis := meta.analysisCode.value) else rec;
    var rec := match At(meta.modes, itime)
      case Some(m) => rec.(mode := m)
      case None => rec;
    match At(meta.eigrs, itime)
    case Some(e) => rec.(timeFreqEigr := e)
    case None =>
      match At(meta.times, itime)
      case Some(t) => rec.(timeFreqEigr := t)
      case None => rec
  }

  /** The registry: the key-to-ID map and the DOMAINS rows in ID order. */
  datatype Registry = Registry(ids: map<DomainKey, int>, records: seq<DomainRecord>)

  const EmptyRegistry := Registry(map[], [])

  /** What the registry always satisfies: row i has ID i + 1, every key maps
      to the ID of a row describing its subcase, and no two keys share an ID. */
  ghost predicate Valid(reg: Registry)
  {
    && (forall i :: 0 <= i < |reg.records| ==> reg.records[i].id == i + 1)
    && (forall k :: k in reg.ids ==>
          1 <= reg.ids[k] <= |reg.records| && reg.records[reg.ids[k] - 1].subcase == k.subcase)
    && (forall k1, k2 :: k1 in reg.ids && k2 in reg.ids && reg.ids[k1] == reg.ids[k2] ==> k1 == k2)
  }

  lemma EmptyValid()
    ensures Valid(EmptyRegistry)
  {
  }

  /** The registry after a lookup, and the ID the lookup returned. */
  datatype Lookup = Lookup(registry: Registry, domainId: int)

  /** get_id: a key already present returns its ID and changes nothing;
      a new key gets the next ID, len(records) + 1, and one new row. */
  function GetId(reg: Registry, subcase: int, itime: nat, meta: StepMeta): (r: Lookup)
    ensures DomainKey(subcase, itime) in r.registry.ids
    ensures r.registry.ids[DomainKey(subcase, itime)] == r.domainId
    ensures DomainKey(subcase, itime) in reg.ids <==> r.registry == reg
    ensures forall k :: k in reg.ids ==> k in r.registry.ids && r.registry.ids[k] == reg.ids[k]
    ensures r.registry.ids.Keys == reg.ids.Keys + {DomainKey(subcase, itime)}
    ensures reg.records <= r.registry.records
    ensures DomainKey(subcase, itime) !in reg.ids ==>
              && |r.registry.records| == |reg.records| + 1
              && r.domainId == |reg.records| + 1
              && r.registry.records[|reg.records|] == NewRecord(r.domainId, subcase, itime, meta)
  {
    var key := DomainKey(subcase, itime);
    if key in reg.ids then
      Lookup(reg, reg.ids[key])
    else
      var did := |reg.records| + 1;
      var reg' := Registry(reg.ids[key := did], reg.records + [NewRecord(did, subcase, itime, meta)]);
      assert reg'.records[..|reg.records|] == reg.records;
      Lookup(reg', did)
  }

  /** get_id keeps the registry's invariant. */
  lemma GetIdValid(reg: Registry, subcase: int, itime: nat, meta: StepMeta)
    requires Valid(reg)
    ensures Valid(GetId(reg, subcase, itime, meta).registry)
  {
    var key := DomainKey(subcase, itime);
    if key !in reg.ids {
      var n := |reg.records|;
      var reg' := Registry(reg.ids[key := n + 1], reg.records + [NewRecord(n + 1, subcase, itime, meta)]);
      assert GetId(reg, subcase, itime, meta).registry == reg';
      forall k | k in reg'.ids
        ensures 1 <= reg'.ids[k] <= |reg'.records| && reg'.records[reg'.ids[k] - 1].subcase == k.subcase
      {
        if k != key {
          assert reg'.records[reg.ids[k] - 1] == reg.records[reg.ids[k] - 1];
        }
      }
      forall k1, k2 | k1 in reg'.ids && k2 in reg'.ids && reg'.ids[k1] == reg'.ids[k2]
        ensures k1 == k2
      {
        if k1 != key && k2 != key {
          assert reg.ids[k1] == reg.ids[k2];
        }
      }
    }
  }

  /** to_array: the DOMAINS table, one row per registered key, in ID order. */
  function ToArray(reg: Registry): (rows: seq<DomainRecord>)
    ensures rows == reg.records
    ensures |rows| == |reg.records|
    ensures Valid(reg) ==> forall i :: 0 <= i < |rows| ==> rows[i].id == i + 1
    ensures Valid(reg) ==> forall k :: k in reg.ids ==> rows[reg.ids[k] - 1].subcase == k.subcase
  {
    if |reg.records| == 0 then [] else reg.records
  }

  /** Row d of a DOMAINS table has ID d and the given subcase. */
  predicate Resolves(domains: seq<DomainRecord>, d: int, subcase: int)
  {
    1 <= d <= |domains| && domains[d - 1].id == d && domains[d - 1].subcase == subcase
  }

  /** In a valid registry every key's ID resolves in to_array's table to a
      row of the key's subcase. */
  lemma ValidResolves(reg: Registry, key: DomainKey)
    requires Valid(reg) && key in reg.ids
    ensures |ToArray(reg)| > 0
    ensures Resolves(ToArray(reg), reg.ids[key], key.subcase)
  {
  }

  /** One get_id call as a builder issues it. */
  datatype Call = Call(key: DomainKey, meta: StepMeta)

  /** The registry after a sequence of get_id calls, in order. */
  function RegisterAll(reg: Registry, calls: seq<Call>): Registry
  {
    if |calls| == 0 then reg
    else
      var last := calls[|calls| - 1];
      GetId(RegisterAll(reg, calls[..|calls| - 1]), last.key.subcase, last.key.itime, last.meta).registry
  }

  lemma {:induction false} RegisterAllAppend(reg: Registry, c1: seq<Call>, c2: seq<Call>)
    ensures RegisterAll(reg, c1 + c2) == RegisterAll(RegisterAll(reg, c1), c2)
    decreases |c2|
  {
    if |c2| == 0 {
      assert c1 + c2 == c1;
    } else {
      assert (c1 + c2)[..|c1 + c2| - 1] == c1 + c2[..|c2| - 1];
      RegisterAllAppend(reg, c1, c2[..|c2| - 1]);
    }
  }

  /** The registry after several lists of calls, one list after another. */
  function RegisterEach(reg: Registry, css: seq<seq<Call>>): Registry
  {
    if |css| == 0 then reg else RegisterAll(RegisterEach(reg, css[..|css| - 1]), css[|css| - 1])
  }

  /** Registering list after list is registering their concatenation. */
  lemma {:induction false} RegisterEachConcat(reg: Registry, css: seq<seq<Call>>)
    ensures RegisterEach(reg, css) == RegisterAll(reg, Concat(css))
    decreases |css|
  {
    if |css| > 0 {
      var front := css[..|css| - 1];
      RegisterEachConcat(reg, front);
      RegisterAllAppend(reg, Concat(front), css[|css| - 1]);
    }
  }

  /** The keys a sequence of calls mentions. */
  function KeysOf(calls: seq<Call>): set<DomainKey>
  {
    set i | 0 <= i < |calls| :: calls[i].key
  }

  /** The reference order of domains: the first call for each distinct key,
      in the order the keys first appear. */
  function FirstCalls(calls: seq<Call>): (fc: seq<Call>)
  {
    if |calls| == 0 then []
    else
      var prev := FirstCalls(calls[..|calls| - 1]);
      var last := calls[|calls| - 1];
      if last.key in KeysOf(prev) then prev else prev + [last]
  }

  /** The registry holds exactly the given first calls, in ID order. */
  ghost predicate Describes(reg: Registry, fc: seq<Call>)
  {
    Valid(reg) && Mirrors(reg, fc)
  }

  /** Call i of fc owns ID i + 1 and DOMAINS row i, and no other key is known. */
  ghost predicate Mirrors(reg: Registry, fc: seq<Call>)
  {
    && reg.ids.Keys == KeysOf(fc)
    && |reg.records| == |fc|
    && forall i :: 0 <= i < |fc| ==>
         && fc[i].key in reg.ids
         && reg.ids[fc[i].key] == i + 1
         && reg.records[i] == NewRecord(i + 1, fc[i].key.subcase, fc[i].key.itime, fc[i].meta)
  }

  lemma KeysOfSnoc(cs: seq<Call>, c: Call)
    ensures KeysOf(cs + [c]) == KeysOf(cs) + {c.key}
  {
    var all := cs + [c];
    forall k | k in KeysOf(all)
      ensures k in KeysOf(cs) + {c.key}
    {
      var i :| 0 <= i < |all| && all[i].key == k;
      if i < |cs| {
        assert all[i] == cs[i];
      }
    }
    forall k | k in KeysOf(cs)
      ensures k in KeysOf(all)
    {
      var i :| 0 <= i < |cs| && cs[i].key == k;
      assert all[i] == cs[i];
    }
    assert all[|cs|] == c;
  }

  lemma KeysOfLast(cs: seq<Call>)
    requires |cs| > 0
    ensures KeysOf(cs) == KeysOf(cs[..|cs| - 1]) + {cs[|cs| - 1].key}
  {
    KeysOfSnoc(cs[..|cs| - 1], cs[|cs| - 1]);
    assert cs[..|cs| - 1] + [cs[|cs| - 1]] == cs;
  }

  /** One get_id call keeps Mirrors: a known key changes nothing, a new key
      becomes the next first call. */
  lemma MirrorsStep(reg: Registry, fc: seq<Call>, c: Call)
    requires Mirrors(reg, fc)
    ensures Mirrors(GetId(reg, c.key.subcase, c.key.itime, c.meta).registry,
                    if c.key in KeysOf(fc) then fc else fc + [c])
  {
    assert c.key == DomainKey(c.key.subcase, c.key.itime);
    if c.key !in KeysOf(fc) {
      MirrorsMiss(reg, fc, c);
    }
  }

  lemma MirrorsMiss(reg: Registry, fc: seq<Call>, c: Call)
    requires Mirrors(reg, fc) && c.key !in KeysOf(fc)
    ensures Mirrors(GetId(reg, c.key.subcase, c.key.itime, c.meta).registry, fc + [c])
  {
    assert c.key == DomainKey(c.key.subcase, c.key.itime);
    var reg' := GetId(reg, c.key.subcase, c.key.itime, c.meta).registry;
    var fc' := fc + [c];
    KeysOfSnoc(fc, c);
    forall i | 0 <= i < |fc'|
      ensures fc'[i].key in reg'.ids && reg'.ids[fc'[i].key] == i + 1
      ensures reg'.records[i] == NewRecord(i + 1, fc'[i].key.subcase, fc'[i].key.itime, fc'[i].meta)
    {
      if i < |fc| {
        assert fc'[i] == fc[i];
        assert reg'.records[i] == reg.records[i];
      } else {
        assert fc'[i] == c;
      }
    }
  }

  lemma {:induction false} FirstSeenMirrors(calls: seq<Call>)
    ensures Mirrors(RegisterAll(EmptyRegistry, calls), FirstCalls(calls))
    decreases |calls|
  {
    if |calls| == 0 {
      assert KeysOf(calls) == {};
    } else {
      var front := calls[..|calls| - 1];
      FirstSeenMirrors(front);
      MirrorsStep(RegisterAll(EmptyRegistry, front), FirstCalls(front), calls[|calls| - 1]);
    }
  }

  /** Density and first-seen order: starting from the empty registry, any
      sequence of get_id calls leaves exactly one ID per distinct key, the
      IDs are 1..N, and the key first seen i-th has ID i + 1 and the DOMAINS
      row built from its first call. */
  lemma FirstSeenOrder(calls: seq<Call>)
    ensures Describes(RegisterAll(EmptyRegistry, calls), FirstCalls(calls))
  {
    FirstSeenMirrors(calls);
    EmptyValid();
    RegisterAllValid(EmptyRegistry, calls);
  }

  /** The first calls mention exactly the keys of all the calls. */
  lemma {:induction false} FirstCallsKeys(calls: seq<Call>)
    ensures KeysOf(FirstCalls(calls)) == KeysOf(calls)
    decreases |calls|
  {
    if |calls| == 0 {
      assert KeysOf(calls) == {};
    } else {
      var front := calls[..|calls| - 1];
      var last := calls[|calls| - 1];
      FirstCallsKeys(front);
      KeysOfLast(calls);
      if last.key !in KeysOf(FirstCalls(front)) {
        KeysOfSnoc(FirstCalls(front), last);
      }
    }
  }

  /** With no key repeated, every call is a first call. */
  lemma {:induction false} FirstCallsDistinct(calls: seq<Call>)
    requires forall i, j :: 0 <= i < j < |calls| ==> calls[i].key != calls[j].key
    ensures FirstCalls(calls) == calls
    decreases |calls|
  {
    if |calls| > 0 {
      var n := |calls|;
      var front := calls[..n - 1];
      FirstCallsDistinct(front);
      assert calls[n - 1].key !in KeysOf(front) by {
        forall i | 0 <= i < |front|
          ensures front[i].key != calls[n - 1].key
        {
          assert front[i] == calls[i];
        }
      }
      assert front + [calls[n - 1]] == calls;
    }
  }

  /** Read back from Describes: what the registry built from a call
      sequence holds. */
  lemma FirstSeenIds(calls: seq<Call>)
    ensures RegisterAll(EmptyRegistry, calls).ids.Keys == KeysOf(calls)
    ensures |RegisterAll(EmptyRegistry, calls).records| == |FirstCalls(calls)|
    ensures forall i :: 0 <= i < |FirstCalls(calls)| ==>
              && FirstCalls(calls)[i].key in RegisterAll(EmptyRegistry, calls).ids
              && RegisterAll(EmptyRegistry, calls).ids[FirstCalls(calls)[i].key] == i + 1
    ensures forall k :: k in RegisterAll(EmptyRegistry, calls).ids ==>
              1 <= RegisterAll(EmptyRegistry, calls).ids[k] <= |FirstCalls(calls)|
    ensures forall i, j :: 0 <= i < j < |FirstCalls(calls)| ==> FirstCalls(calls)[i].key != FirstCalls(calls)[j].key
  {
    FirstSeenOrder(calls);
    FirstCallsKeys(calls);
    var reg := RegisterAll(EmptyRegistry, calls);
    var fc := FirstCalls(calls);
    forall i, j | 0 <= i < j < |fc|
      ensures fc[i].key != fc[j].key
    {
      assert reg.ids[fc[i].key] == i + 1 && reg.ids[fc[j].key] == j + 1;
    }
  }

  /** Idempotence: asking again for a key just registered returns the same
      ID and leaves the registry as it was, whatever metadata comes along. */
  lemma GetIdIdempotent(reg: Registry, subcase: int, itime: nat, m1: StepMeta, m2: StepMeta)
    ensures GetId(GetId(reg, subcase, itime, m1).registry, subcase, itime, m2).domainId
            == GetId(reg, subcase, itime, m1).domainId
    ensures GetId(GetId(reg, subcase, itime, m1).registry, subcase, itime, m2).registry
            == GetId(reg, subcase, itime, m1).registry
  {
  }

  /** IDs are never reassigned: whatever calls follow, a key keeps its ID
      and the existing DOMAINS rows stay as they are. */
  lemma {:induction false} RegisterAllKeepsIds(reg: Registry, calls: seq<Call>)
    ensures forall k :: k in reg.ids ==> k in RegisterAll(reg, calls).ids && RegisterAll(reg, calls).ids[k] == reg.ids[k]
    ensures reg.records <= RegisterAll(reg, calls).records
    decreases |calls|
  {
    if |calls| > 0 {
      RegisterAllKeepsIds(reg, calls[..|calls| - 1]);
    }
  }

  /** r extends r0: every key of r0 keeps its ID in r and the DOMAINS rows
      of r0 are a prefix of those of r. */
  ghost predicate Extends(r0: Registry, r: Registry)
  {
    && (forall k :: k in r0.ids ==> k in r.ids && r.ids[k] == r0.ids[k])
    && r0.records <= r.records
  }

  lemma ExtendsTrans(r0: Registry, r1: Registry, r2: Registry)
    requires Extends(r0, r1) && Extends(r1, r2)
    ensures Extends(r0, r2)
  {
  }

  /** Any sequence of get_id calls keeps the registry's invariant. */
  lemma {:induction false} RegisterAllValid(reg: Registry, calls: seq<Call>)
    requires Valid(reg)
    ensures Valid(RegisterAll(reg, calls))
    decreases |calls|
  {
    if |calls| > 0 {
      var last := calls[|calls| - 1];
      RegisterAllValid(reg, calls[..|calls| - 1]);
      GetIdValid(RegisterAll(reg, calls[..|calls| - 1]), last.key.subcase, last.key.itime, last.meta);
    }
  }
}

=== FILE: index.dfy ===
/** The INDEX table that accompanies every result table: one entry per
    (subcase, time step) block, giving the block's DOMAIN_ID, the row where
    it starts (POSITION) and its row count (LENGTH). A table is built by
    appending blocks one at a time; the accumulator keeps the blocks, the
    index entries and the running position. */
module Index {
  import opened Seqs
  import opened Records

  datatype IndexEntry = IndexEntry(domainId: int, position: int, length: int)

  /** The builders' rows_list, idx_list and pos. */
  datatype Acc = Acc(blocks: seq<seq<Record>>, index: seq<IndexEntry>, pos: int)

  const EmptyAcc := Acc([], [], 0)

  /** The table the accumulated blocks concatenate to. */
  function Rows(acc: Acc): seq<Record>
  {
    Concat(acc.blocks)
  }

  /** Every row of a block carries the block's DOMAIN_ID. */
  predicate Tagged(block: seq<Record>, did: int)
  {
    forall r :: r in block ==> r.domainId == did
  }

  /** The accumulator agrees with its blocks: entry k describes block k
      (its ID tags every row of the block, its POSITION is where the block
      starts in the concatenation, its LENGTH the block's row count) and pos
      is the number of rows so far. */
  ghost predicate Consistent(acc: Acc)
  {
    && |acc.index| == |acc.blocks|
    && acc.pos == |Concat(acc.blocks)|
    && forall k :: 0 <= k < |acc.index| ==>
         && acc.index[k].position == |Concat(acc.blocks[..k])|
         && acc.index[k].length == |acc.blocks[k]|
         && Tagged(acc.blocks[k], acc.index[k].domainId)
  }

  lemma EmptyConsistent()
    ensures Consistent(EmptyAcc)
  {
  }

  /** Appending one block: the block goes after the others, and its INDEX
      entry records its domain ID, the table's old end position as its
      start, and its row count; the end position moves past the block. */
  function Emit(acc: Acc, did: int, block: seq<Record>): Acc
  {
    Acc(acc.blocks + [block], acc.index + [IndexEntry(did, acc.pos, |block|)], acc.pos + |block|)
  }

  /** Appending a block whose rows all carry its ID keeps the accumulator
      consistent: the new entry starts where the table ended. */
  lemma EmitConsistent(acc: Acc, did: int, block: seq<Record>)
    requires Consistent(acc) && Tagged(block, did)
    ensures Consistent(Emit(acc, did, block))
  {
    var bs := acc.blocks + [block];
    var ix := acc.index + [IndexEntry(did, acc.pos, |block|)];
    ConcatSnoc(acc.blocks, block);
    assert bs[..|acc.blocks|] == acc.blocks;
    forall k | 0 <= k < |ix|
      ensures ix[k].position == |Concat(bs[..k])|
      ensures ix[k].length == |bs[k]|
      ensures Tagged(bs[k], ix[k].domainId)
    {
      if k < |acc.index| {
        assert bs[..k] == acc.blocks[..k];
        assert ix[k] == acc.index[k] && bs[k] == acc.blocks[k];
      }
    }
  }

  // ---------------------------------------------------------------------
  // What a consistent INDEX says about its table
  // ---------------------------------------------------------------------

  /** Sum of the LENGTH column. */
  function TotalLength(index: seq<IndexEntry>): int
  {
    if |index| == 0 then 0 else TotalLength(index[..|index| - 1]) + index[|index| - 1].length
  }

  /** The entries tile rows [0, total): the first starts at 0, each starts
      where the previous one ends, lengths are non-negative and the last
      ends at total. */
  ghost predicate Tiles(index: seq<IndexEntry>, total: int)
  {
    && (forall k :: 0 <= k < |index| ==> index[k].length >= 0 && index[k].position == TotalLength(index[..k]))
    && TotalLength(index) == total
  }

  /** A consistent accumulator's INDEX tiles its table. */
  lemma ConsistentTiles(acc: Acc)
    requires Consistent(acc)
    ensures Tiles(acc.index, |Rows(acc)|)
  {
    var n := |acc.blocks|;
    forall k | 0 <= k < n
      ensures TotalLength(acc.index[..k]) == |Concat(acc.blocks[..k])|
    {
      PrefixLengths(acc, k);
    }
    PrefixLengths(acc, n);
    assert acc.index[..n] == acc.index && acc.blocks[..n] == acc.blocks;
  }

  lemma {:induction false} PrefixLengths(acc: Acc, k: nat)
    requires Consistent(acc) && k <= |acc.blocks|
    ensures TotalLength(acc.index[..k]) == |Concat(acc.blocks[..k])|
    decreases k
  {
    if k > 0 {
      PrefixLengths(acc, k - 1);
      assert acc.index[..k][..k - 1] == acc.index[..k - 1];
      ConcatPrefixLength(acc.blocks, k - 1);
    }
  }

  /** The prefix sums of a tiling are monotone. */
  lemma {:induction false} TotalLengthMono(index: seq<IndexEntry>, i: nat, j: nat)
    requires i <= j <= |index|
    requires forall k :: 0 <= k < |index| ==> index[k].length >= 0
    ensures TotalLength(index[..i]) <= TotalLength(index[..j])
    decreases j - i
  {
    if i < j {
      TotalLengthMono(index, i, j - 1);
      assert index[..j][..j - 1] == index[..j - 1];
    }
  }

  /** Two entries of a tiling never overlap: an earlier entry ends no later
      than a later one starts. */
  lemma Disjoint(index: seq<IndexEntry>, total: int, a: nat, b: nat)
    requires Tiles(index, total) && a < b < |index|
    ensures index[a].position + index[a].length <= index[b].position
  {
    assert index[..a + 1][..a] == index[..a];
    TotalLengthMono(index, a + 1, b);
  }

  /** Every row of the table lies in some entry's range. */
  lemma {:induction false} Covers(index: seq<IndexEntry>, total: int, row: int)
    requires Tiles(index, total) && 0 <= row < total
    ensures exists k :: 0 <= k < |index| && index[k].position <= row < index[k].position + index[k].length
    decreases |index|
  {
    var n := |index|;
    assert n > 0;
    var last := index[n - 1];
    assert index[..n][..n - 1] == index[..n - 1];
    if row >= last.position {
      assert index[n - 1].position <= row < index[n - 1].position + index[n - 1].length;
    } else {
      var front := index[..n - 1];
      forall k | 0 <= k < |front|
        ensures front[k].length >= 0 && front[k].position == TotalLength(front[..k])
      {
        assert front[..k] == index[..k];
      }
      Covers(front, last.position, row);
      var k :| 0 <= k < |front| && front[k].position <= row < front[k].position + front[k].length;
      assert index[k] == front[k];
    }
  }

  /** What an INDEX promises about its table: the entries tile the rows,
      and every row inside an entry's range carries the entry's DOMAIN_ID. */
  ghost predicate IndexedBy(rows: seq<Record>, index: seq<IndexEntry>)
  {
    Tiles(index, |rows|) && RangesTagged(rows, index)
  }

  ghost predicate RangesTagged(rows: seq<Record>, index: seq<IndexEntry>)
  {
    forall k, r :: 0 <= k < |index| && 0 <= r < |rows| && index[k].position <= r < index[k].position + index[k].length ==>
      rows[r].domainId == index[k].domainId
  }

  /** A consistent accumulator's INDEX describes its table. */
  lemma ConsistentIndexed(acc: Acc)
    requires Consistent(acc)
    ensures IndexedBy(Rows(acc), acc.index)
  {
    ConsistentTiles(acc);
    ConsistentRangesTagged(acc);
  }

  lemma ConsistentRangesTagged(acc: Acc)
    requires Consistent(acc)
    ensures RangesTagged(Rows(acc), acc.index)
  {
    var rows := Rows(acc);
    var index := acc.index;
    forall k, r | 0 <= k < |index| && 0 <= r < |rows| && index[k].position <= r < index[k].position + index[k].length
      ensures rows[r].domainId == index[k].domainId
    {
      RowsTagged(acc, k, r - index[k].position);
    }
  }

  /** Row j of entry k's range is row j of block k, so it carries entry k's
      DOMAIN_ID. */
  lemma RowsTagged(acc: Acc, k: nat, j: nat)
    requires Consistent(acc) && k < |acc.index| && j < acc.index[k].length
    ensures acc.index[k].position + j < |Rows(acc)|
    ensures Rows(acc)[acc.index[k].position + j] == acc.blocks[k][j]
    ensures Rows(acc)[acc.index[k].position + j].domainId == acc.index[k].domainId
  {
    ConcatIndex(acc.blocks, k, j);
    assert acc.blocks[k][j] in acc.blocks[k];
  }
}

=== FILE: op2.dfy ===
/** The in-memory result model the writer reads: one result object per
    subcase of each result category, as the upstream OP2 reader provides it.
    Attributes the writer probes with hasattr/getattr are optional here. */
module Op2 {
  import opened Seqs
  import opened Domains

  /** One row of an element_node array: element id and grid id. */
  datatype ElementNode = ElementNode(eid: int, grid: int)

  /** One result object. data is the [time step][row][component] array and
      ncols its third dimension (data.shape[2]). */
  datatype ResultObject = ResultObject(
    nodeIds: seq<int>,
    element: Option<seq<int>>,
    elementNode: Option<seq<ElementNode>>,
    nnodesPerElement: Option<int>,
    nnodes: Option<int>,
    data: seq<seq<seq<real>>>,
    ncols: nat,
    meta: StepMeta)

  /** The data array has nrows rows of ncols components at every step. */
  ghost predicate Rectangular(res: ResultObject, nrows: nat)
  {
    forall t :: 0 <= t < |res.data| ==>
      |res.data[t]| == nrows && forall r :: 0 <= r < nrows ==> |res.data[t][r]| == res.ncols
  }

  /** Nodes per plate element: nnodes_per_element, else nnodes, else 1. */
  function PlateNodes(res: ResultObject): int
  {
    match res.nnodesPerElement
    case Some(n) => n
    case None =>
      match res.nnodes
      case Some(n) => n
      case None => 1
  }

  /** The element-id column of an element_node array. */
  function EidColumn(en: seq<ElementNode>): (eids: seq<int>)
    ensures |eids| == |en|
    ensures forall i :: 0 <= i < |en| ==> eids[i] == en[i].eid
  {
    seq(|en|, i requires 0 <= i < |en| => en[i].eid)
  }

  /** The element ids a 1-D/force table uses: `element` when present,
      else the first column of `element_node`, else none (subcase skipped). */
  function OneDIds(res: ResultObject): Option<seq<int>>
  {
    if res.element.Some? then Some(res.element.value)
    else if res.elementNode.Some? then Some(EidColumn(res.elementNode.value))
    else None
  }
}

=== FILE: records.dfy ===
/** The fixed-layout output records of the result tables and the packing
    rules that turn one time step of one result object into one block of
    records: nodal vectors, centre-only plate stress/strain, 1-D element
    stress/strain and element forces (driven by a field-to-column map), and
    solid stress/strain with a nested array of sample points. */
module Records {
  import opened Seqs
  import opened Op2

  /** One surface of a plate record: FDn, Xn, Yn, XYn. */
  datatype Surface = Surface(fd: real, x: real, y: real, xy: real)

  /** One entry of a solid record's SS array. */
  datatype SamplePoint = SamplePoint(grid: int, x: real, y: real, z: real, txy: real, tyz: real, tzx: real)

  /** One output row. Every variant ends with its DOMAIN_ID.
      FlatRecord covers the tables whose layout is an id followed by named
      float fields (NODAL, BAR/ROD/BUSH stress and strain, element forces);
      `values` maps each float field of the layout to its value. */
  datatype Record =
    | FlatRecord(id: int, values: map<string, real>, domainId: int)
    | PlateRecord(eid: int, top: Surface, bottom: Surface, domainId: int)
    | SolidRecord(eid: int, cid: int, ctype: string, nodef: int, ss: seq<SamplePoint>, domainId: int)

  /** One (field name, source column) pair of a column map. */
  datatype ColEntry = ColEntry(field: string, col: nat)

  // ---------------------------------------------------------------------
  // Record layouts (float fields after the id) and column maps
  // ---------------------------------------------------------------------

  const NODAL_FIELDS: seq<string> := ["X", "Y", "Z", "RX", "RY", "RZ"]
  const NODAL_COLS: seq<ColEntry> :=
    [ColEntry("X", 0), ColEntry("Y", 1), ColEntry("Z", 2), ColEntry("RX", 3), ColEntry("RY", 4), ColEntry("RZ", 5)]

  const BAR_STRESS_FIELDS: seq<string> :=
    ["X1A", "X2A", "X3A", "X4A", "AX", "MAXA", "MINA", "MST", "X1B", "X2B", "X3B", "X4B", "MAXB", "MINB", "MSC"]
  const BAR_STRESS_COLS: seq<ColEntry> :=
    [ColEntry("X1A", 0), ColEntry("X2A", 1), ColEntry("X3A", 2), ColEntry("X4A", 3),
     ColEntry("AX", 4), ColEntry("MAXA", 5), ColEntry("MINA", 6), ColEntry("MST", 7),
     ColEntry("X1B", 8), ColEntry("X2B", 9), ColEntry("X3B", 10), ColEntry("X4B", 11),
     ColEntry("MAXB", 12), ColEntry("MINB", 13), ColEntry("MSC", 14)]

  const ROD_STRESS_FIELDS: seq<string> := ["A", "MSA", "T", "MST"]
  const ROD_STRESS_COLS: seq<ColEntry> :=
    [ColEntry("A", 0), ColEntry("MSA", 1), ColEntry("T", 2), ColEntry("MST", 3)]

  const BUSH_STRESS_FIELDS: seq<string> := ["TX", "TY", "TZ", "RX", "RY", "RZ"]
  const BUSH_STRESS_COLS: seq<ColEntry> :=
    [ColEntry("TX", 0), ColEntry("TY", 1), ColEntry("TZ", 2), ColEntry("RX", 3), ColEntry("RY", 4), ColEntry("RZ", 5)]

  const BAR_FORCE_FIELDS: seq<string> := ["BM1A", "BM2A", "BM1B", "BM2B", "TS1", "TS2", "AF", "TRQ"]
  const BAR_FORCE_COLS: seq<ColEntry> :=
    [ColEntry("BM1A", 0), ColEntry("BM2A", 1), ColEntry("BM1B", 2), ColEntry("BM2B", 3),
     ColEntry("TS1", 4), ColEntry("TS2", 5), ColEntry("AF", 6), ColEntry("TRQ", 7)]

  const ROD_FORCE_FIELDS: seq<string> := ["AF", "TRQ"]
  const ROD_FORCE_COLS: seq<ColEntry> := [ColEntry("AF", 0), ColEntry("TRQ", 1)]

  const BUSH_FORCE_FIELDS: seq<string> := ["FX", "FY", "FZ", "MX", "MY", "MZ"]
  const BUSH_FORCE_COLS: seq<ColEntry> :=
    [ColEntry("FX", 0), ColEntry("FY", 1), ColEntry("FZ", 2), ColEntry("MX", 3), ColEntry("MY", 4), ColEntry("MZ", 5)]

  const QUAD4_FORCE_FIELDS: seq<string> := ["MX", "MY", "MXY", "BMX", "BMY", "BMXY", "TX", "TY"]
  const QUAD4_FORCE_COLS: seq<ColEntry> :=
    [ColEntry("MX", 0), ColEntry("MY", 1), ColEntry("MXY", 2), ColEntry("BMX", 3),
     ColEntry("BMY", 4), ColEntry("BMXY", 5), ColEntry("TX", 6), ColEntry("TY", 7)]

  /** Sample points per element of the solid layouts (length of SS). */
  const HEXA_POINTS: nat := 9
  const PENTA_POINTS: nat := 7
  const TETRA_POINTS: nat := 5

  /** The packing rule a table uses. */
  datatype Category =
    | Nodal
    | Plate
    | OneD(layout: seq<string>, cols: seq<ColEntry>)
    | Solid(npts: nat)

  // ---------------------------------------------------------------------
  // Column-map filling
  // ---------------------------------------------------------------------

  predicate DistinctFields(cols: seq<ColEntry>)
  {
    forall i, j :: 0 <= i < j < |cols| ==> cols[i].field != cols[j].field
  }

  /** No entry of the column map names field f. */
  predicate Unmapped(cols: seq<ColEntry>, f: string)
  {
    forall j :: 0 <= j < |cols| ==> cols[j].field != f
  }

  /** A column map fits a layout: distinct fields, all of them in the layout
      (numpy rejects a field name the record type does not have). */
  predicate ColsFit(layout: seq<string>, cols: seq<ColEntry>)
  {
    DistinctFields(cols) && forall j :: 0 <= j < |cols| ==> cols[j].field in layout
  }

  /** No field name appears twice in a layout. */
  predicate Distinct(layout: seq<string>)
  {
    forall i, j :: 0 <= i < j < |layout| ==> layout[i] != layout[j]
  }

  /** The column map that sends the i-th float field of a layout to column i. */
  function Positional(layout: seq<string>): (cols: seq<ColEntry>)
    ensures |cols| == |layout|
    ensures forall i :: 0 <= i < |layout| ==> cols[i] == ColEntry(layout[i], i)
  {
    seq(|layout|, i requires 0 <= i < |layout| => ColEntry(layout[i], i))
  }

  /** A positional map over a layout without repeated names fits it. */
  lemma PositionalFits(layout: seq<string>)
    requires Distinct(layout)
    ensures ColsFit(layout, Positional(layout))
  {
    var cols := Positional(layout);
    assert forall j :: 0 <= j < |cols| ==> cols[j].field == layout[j];
  }

  /** Every column map of the source is positional over its layout: the
      i-th float field of the record takes column i of the result data. */
  lemma BarStressColsPositional()
    ensures BAR_STRESS_COLS == Positional(BAR_STRESS_FIELDS)
  {
  }

  /** No layout repeats a field name. */
  lemma BarStressFieldsDistinct()
    ensures Distinct(BAR_STRESS_FIELDS)
  {
  }

  lemma OtherColsPositional()
    ensures Distinct(ROD_STRESS_FIELDS) && ROD_STRESS_COLS == Positional(ROD_STRESS_FIELDS)
    ensures Distinct(BUSH_STRESS_FIELDS) && BUSH_STRESS_COLS == Positional(BUSH_STRESS_FIELDS)
    ensures Distinct(BAR_FORCE_FIELDS) && BAR_FORCE_COLS == Positional(BAR_FORCE_FIELDS)
    ensures Distinct(ROD_FORCE_FIELDS) && ROD_FORCE_COLS == Positional(ROD_FORCE_FIELDS)
    ensures Distinct(BUSH_FORCE_FIELDS) && BUSH_FORCE_COLS == Positional(BUSH_FORCE_FIELDS)
    ensures Distinct(QUAD4_FORCE_FIELDS) && QUAD4_FORCE_COLS == Positional(QUAD4_FORCE_FIELDS)
  {
  }

  /** A freshly zeroed record (np.zeros): every float field 0. */
  function Zeros(layout: seq<string>): (m: map<string, real>)
    ensures m.Keys == set f | f in layout
    ensures forall f :: f in m ==> m[f] == 0.0
  {
    map f | f in layout :: 0.0
  }

  /** The column-map loop on one row: for each (field, col) in order, the
      field takes row[col] when col is below the available column count. */
  function FillFields(cols: seq<ColEntry>, row: seq<real>, init: map<string, real>): (m: map<string, real>)
    requires DistinctFields(cols)
    requires forall j :: 0 <= j < |cols| ==> cols[j].field in init
    ensures m.Keys == init.Keys
    ensures forall j :: 0 <= j < |cols| ==>
              m[cols[j].field] == (if cols[j].col < |row| then row[cols[j].col] else init[cols[j].field])
    ensures forall f :: f in init && Unmapped(cols, f) ==> m[f] == init[f]
    decreases |cols|
  {
    if |cols| == 0 then init
    else
      var front := cols[..|cols| - 1];
      var e := cols[|cols| - 1];
      var m := FillFields(front, row, init);
      assert forall j :: 0 <= j < |front| ==> front[j] == cols[j] && front[j].field != e.field;
      if e.col < |row| then m[e.field := row[e.col]] else m
  }

  // ---------------------------------------------------------------------
  // Preconditions the source relies on (numpy shape errors otherwise)
  // ---------------------------------------------------------------------

  /** Every row of step it of a rectangular result is at least w wide. */
  lemma RowsWide(res: ResultObject, nrows: nat, it: nat, w: nat)
    requires Rectangular(res, nrows) && it < |res.data| && res.ncols >= w
    ensures |res.data[it]| == nrows
    ensures forall r :: 0 <= r < |res.data[it]| ==> |res.data[it][r]| >= w
  {
  }

  /** Rows per plate element: top and bottom for each node. */
  function Rpe(res: ResultObject): int
  {
    2 * PlateNodes(res)
  }

  /** The shapes of pyNastran's result objects that each packing rule
      relies on. They are stronger than what numpy itself needs: some
      inputs outside them still pack through broadcasting, and the model
      does not cover those inputs. */
  ghost predicate WellFormed(cat: Category, res: ResultObject)
  {
    match cat
    case Nodal => Rectangular(res, |res.nodeIds|)
    case Plate =>
      && res.elementNode.Some?
      && PlateNodes(res) != 0
      && Rectangular(res, |res.elementNode.value|)
      && (|res.data| > 0 ==> PlateNodes(res) >= 1 && |res.elementNode.value| % Rpe(res) == 0 && res.ncols >= 4)
    case OneD(layout, cols) =>
      && ColsFit(layout, cols)
      && (OneDIds(res).Some? ==> Rectangular(res, |OneDIds(res).value|))
    case Solid(npts) =>
      && npts >= 1
      && res.elementNode.Some?
      && |res.elementNode.value| % npts == 0
      && Rectangular(res, |res.elementNode.value|)
      && (|res.data| > 0 ==> res.ncols >= 6 && |res.elementNode.value| > 0)
  }

  /** A 1-D/force subcase with neither `element` nor `element_node` ids is
      skipped entirely; the other rules never skip. */
  predicate Skipped(cat: Category, res: ResultObject)
  {
    cat.OneD? && OneDIds(res).None?
  }

  // ---------------------------------------------------------------------
  // Packing rules: one time step of one result object -> one block
  // ---------------------------------------------------------------------

  /** Nodal vectors: one row per node; X..RZ come from the first
      min(ncols, 6) columns, the rest stay 0. */
  function NodalBlock(res: ResultObject, it: nat, did: int): (b: seq<Record>)
    requires WellFormed(Nodal, res) && it < |res.data|
    ensures |b| == |res.nodeIds|
    ensures forall j :: 0 <= j < |b| ==>
              && b[j].FlatRecord?
              && b[j].id == res.nodeIds[j]
              && b[j].domainId == did
              && b[j].values.Keys == set f | f in NODAL_FIELDS
    ensures forall j, c :: 0 <= j < |b| && 0 <= c < 6 ==>
              b[j].values[NODAL_FIELDS[c]] == (if c < res.ncols then res.data[it][j][c] else 0.0)
  {
    var k := if res.ncols < 6 then res.ncols else 6;
    NodalColsPrefix(k);
    var cols := NODAL_COLS[..k];
    seq(|res.nodeIds|, j requires 0 <= j < |res.nodeIds| =>
      FlatRecord(res.nodeIds[j], FillFields(cols, res.data[it][j], Zeros(NODAL_FIELDS)), did))
  }

  /** The first k entries of NODAL_COLS map field c to column c, and leave
      the fields from k on unmapped. */
  lemma NodalColsPrefix(k: nat)
    requires k <= 6
    ensures DistinctFields(NODAL_COLS[..k])
    ensures forall c :: 0 <= c < k ==> NODAL_COLS[..k][c] == ColEntry(NODAL_FIELDS[c], c)
    ensures forall c :: k <= c < 6 ==> Unmapped(NODAL_COLS[..k], NODAL_FIELDS[c])
    ensures forall j :: 0 <= j < k ==> NODAL_COLS[..k][j].field in Zeros(NODAL_FIELDS)
  {
    var cols := NODAL_COLS[..k];
    assert forall c :: 0 <= c < k ==> cols[c] == NODAL_COLS[c];
  }

  /** Centre-only plate stress/strain: each element owns 2 * nnodes rows;
      the element id comes from every rpe-th row, FD1/X1/Y1/XY1 are
      columns 0..3 of the element's first row (top surface) and
      FD2/X2/Y2/XY2 columns 0..3 of its second row (bottom surface). */
  function PlateBlock(res: ResultObject, it: nat, did: int): (b: seq<Record>)
    requires WellFormed(Plate, res) && it < |res.data|
    ensures |b| == |res.elementNode.value| / Rpe(res)
    ensures var en, d, rpe := res.elementNode.value, res.data[it], Rpe(res);
            forall e :: 0 <= e < |b| ==>
              && 0 <= e * rpe && e * rpe + 1 < |en|
              && b[e] == PlateRecord(en[e * rpe].eid, SurfaceOf(d[e * rpe]), SurfaceOf(d[e * rpe + 1]), did)
  {
    RowsWide(res, |res.elementNode.value|, it, 4);
    PlateRows(res.elementNode.value, res.data[it], Rpe(res), did)
  }

  /** The plate packing on one step's rows, rpe rows per element. */
  function PlateRows(en: seq<ElementNode>, d: seq<seq<real>>, rpe: nat, did: int): (b: seq<Record>)
    requires rpe >= 2 && |en| % rpe == 0 && |d| == |en|
    requires forall r :: 0 <= r < |d| ==> |d[r]| >= 4
    ensures |b| == |en| / rpe
    ensures forall e :: 0 <= e < |b| ==>
              && 0 <= e * rpe && e * rpe + 1 < |en|
              && b[e] == PlateRecord(en[e * rpe].eid, SurfaceOf(d[e * rpe]), SurfaceOf(d[e * rpe + 1]), did)
  {
    var topI := Arange(0, |en|, rpe);
    ArangeGroups(|en|, rpe);
    var b := seq(|topI|, e requires 0 <= e < |topI| =>
      PlateRecord(en[topI[e]].eid, SurfaceOf(d[topI[e]]), SurfaceOf(d[topI[e] + 1]), did));
    b
  }

  function SurfaceOf(row: seq<real>): Surface
    requires |row| >= 4
  {
    Surface(row[0], row[1], row[2], row[3])
  }

  /** 1-D element stress/strain and element forces: one row per element;
      a mapped field takes its column when that column exists, every other
      field stays 0. */
  function OneDBlock(layout: seq<string>, cols: seq<ColEntry>, res: ResultObject, it: nat, did: int): (b: seq<Record>)
    requires WellFormed(OneD(layout, cols), res) && OneDIds(res).Some? && it < |res.data|
    ensures |b| == |OneDIds(res).value|
    ensures forall j :: 0 <= j < |b| ==>
              && b[j].FlatRecord?
              && b[j].id == OneDIds(res).value[j]
              && b[j].domainId == did
              && b[j].values.Keys == set f | f in layout
    ensures forall j, i :: 0 <= j < |b| && 0 <= i < |cols| ==>
              b[j].values[cols[i].field] == (if cols[i].col < res.ncols then res.data[it][j][cols[i].col] else 0.0)
    ensures forall j, f :: 0 <= j < |b| && f in layout && Unmapped(cols, f) ==> b[j].values[f] == 0.0
  {
    var eids := OneDIds(res).value;
    var d := res.data[it];
    seq(|eids|, j requires 0 <= j < |eids| => FlatRecord(eids[j], FillFields(cols, d[j], Zeros(layout)), did))
  }

  /** NODEF of a solid record: the source's table {9: 8, 7: 6, 5: 4} with
      npts - 1 as the default, which is npts - 1 for every point count. */
  function Nodef(npts: int): (n: int)
    ensures n == npts - 1
  {
    var table := map[9 := 8, 7 := 6, 5 := 4];
    if npts in table then table[npts] else npts - 1
  }

  /** Solid stress/strain: element_node and the step's rows are reshaped into
      npts rows per element; one record per element with CID 0, CTYPE GRID,
      NODEF and an SS array of npts sample points (SolidBlockPoint states
      where each point comes from). */
  function SolidBlock(npts: nat, res: ResultObject, it: nat, did: int): (b: seq<Record>)
    requires WellFormed(Solid(npts), res) && it < |res.data|
    ensures |b| == |res.elementNode.value| / npts
    ensures forall e :: 0 <= e < |b| ==>
              && b[e].SolidRecord?
              && 0 <= e * npts < |res.elementNode.value|
              && b[e].eid == res.elementNode.value[e * npts].eid
              && b[e].cid == 0 && b[e].ctype == "GRID" && b[e].nodef == npts - 1
              && |b[e].ss| == npts
              && b[e].domainId == did
  {
    RowsWide(res, |res.elementNode.value|, it, 6);
    SolidRows(npts, res.elementNode.value, res.data[it], did)
  }

  /** The solid packing on one step's rows, npts rows per element. */
  function SolidRows(npts: nat, en: seq<ElementNode>, d: seq<seq<real>>, did: int): (b: seq<Record>)
    requires npts >= 1 && |en| % npts == 0 && |d| == |en|
    requires forall r :: 0 <= r < |d| ==> |d[r]| >= 6
    ensures |b| == |en| / npts
    ensures forall e :: 0 <= e < |b| ==>
              && b[e].SolidRecord?
              && 0 <= e * npts < |en|
              && b[e].eid == en[e * npts].eid
              && b[e].cid == 0 && b[e].ctype == "GRID" && b[e].nodef == npts - 1
              && |b[e].ss| == npts
              && b[e].domainId == did
  {
    var nElem := |en| / npts;
    DivisibleSplit(|en|, npts);
    var enR := Chunks(en, nElem, npts);
    ChunksHeads(en, nElem, npts);
    var ss := SamplePoints(npts, en, d);
    var nodef := Nodef(npts);
    seq(nElem, e requires 0 <= e < nElem => SolidRecord(enR[e][0].eid, 0, "GRID", nodef, ss[e], did))
  }

  /** The SS arrays of one step: the rows zipped into sample points and
      reshaped into npts points per element. */
  function SamplePoints(npts: nat, en: seq<ElementNode>, d: seq<seq<real>>): (ss: seq<seq<SamplePoint>>)
    requires npts >= 1 && |en| % npts == 0 && |d| == |en|
    requires forall r :: 0 <= r < |d| ==> |d[r]| >= 6
    ensures |ss| == |en| / npts
    ensures forall e :: 0 <= e < |ss| ==> |ss[e]| == npts
  {
    DivisibleSplit(|en|, npts);
    Chunks(Points(en, d), |en| / npts, npts)
  }

  /** Each element_node row zipped with its data row. */
  function Points(en: seq<ElementNode>, d: seq<seq<real>>): (pts: seq<SamplePoint>)
    requires |d| == |en|
    requires forall r :: 0 <= r < |d| ==> |d[r]| >= 6
    ensures |pts| == |en|
    ensures forall r :: 0 <= r < |en| ==> pts[r] == PointOf(en[r], d[r])
  {
    seq(|en|, r requires 0 <= r < |en| => PointOf(en[r], d[r]))
  }

  /** Point p of element e's SS array comes from flat row e * npts + p:
      its GRID from element_node and X..TZX from columns 0..5 of data. */
  lemma SamplePointsAt(npts: nat, en: seq<ElementNode>, d: seq<seq<real>>, e: nat, p: nat)
    requires npts >= 1 && |en| % npts == 0 && |d| == |en|
    requires forall r :: 0 <= r < |d| ==> |d[r]| >= 6
    requires e < |en| / npts && p < npts
    ensures e * npts + p < |en|
    ensures SamplePoints(npts, en, d)[e][p] == PointOf(en[e * npts + p], d[e * npts + p])
  {
    DivisibleSplit(|en|, npts);
    ChunksAt(Points(en, d), |en| / npts, npts, e, p);
  }

  /** In the packed solid block, SS point p of element e holds the grid id
      and the six stress/strain components of flat row e * npts + p. */
  lemma SolidBlockPoint(npts: nat, res: ResultObject, it: nat, did: int, e: nat, p: nat)
    requires WellFormed(Solid(npts), res) && it < |res.data|
    requires e < |res.elementNode.value| / npts && p < npts
    ensures e * npts + p < |res.elementNode.value| && |res.data[it][e * npts + p]| == res.ncols
    ensures SolidBlock(npts, res, it, did)[e].ss[p]
         == PointOf(res.elementNode.value[e * npts + p], res.data[it][e * npts + p])
  {
    RowsWide(res, |res.elementNode.value|, it, 6);
    SamplePointsAt(npts, res.elementNode.value, res.data[it], e, p);
  }

  /** One SS entry: the grid id of an element_node row and the six
      components of the matching data row. */
  function PointOf(node: ElementNode, row: seq<real>): SamplePoint
    requires |row| >= 6
  {
    SamplePoint(node.grid, row[0], row[1], row[2], row[3], row[4], row[5])
  }

  /** The block one time step of one subcase contributes to a table. */
  function Block(cat: Category, res: ResultObject, it: nat, did: int): (b: seq<Record>)
    requires WellFormed(cat, res) && !Skipped(cat, res) && it < |res.data|
    ensures forall r :: r in b ==> r.domainId == did
  {
    match cat
    case Nodal => NodalBlock(res, it, did)
    case Plate => PlateBlock(res, it, did)
    case OneD(layout, cols) => OneDBlock(layout, cols, res, it, did)
    case Solid(npts) => SolidBlock(npts, res, it, did)
  }
}

=== FILE: seqs.dfy ===
/** Sequence helpers shared by the HDF5 result writer model: an Option type,
    concatenation of record blocks (numpy's concatenate), fixed-width
    grouping (numpy's reshape of a flat row list) and the ascending key
    order of a map (Python's sorted(dict)). */
module Seqs {

  datatype Option<T> = None | Some(value: T)

  /** Concatenation of a list of blocks, in list order. */
  function Concat<T>(bs: seq<seq<T>>): seq<T>
  {
    if |bs| == 0 then [] else Concat(bs[..|bs| - 1]) + bs[|bs| - 1]
  }

  lemma ConcatSnoc<T>(bs: seq<seq<T>>, b: seq<T>)
    ensures Concat(bs + [b]) == Concat(bs) + b
  {
    assert (bs + [b])[..|bs|] == bs;
  }

  /** The length of a concatenation grows by exactly the next block's length. */
  lemma ConcatPrefixLength<T>(bs: seq<seq<T>>, k: nat)
    requires k < |bs|
    ensures |Concat(bs[..k + 1])| == |Concat(bs[..k])| + |bs[k]|
  {
    assert bs[..k + 1] == bs[..k] + [bs[k]];
    ConcatSnoc(bs[..k], bs[k]);
  }

  /** Row j of block k sits at the offset of block k plus j in the concatenation. */
  lemma {:induction false} ConcatIndex<T>(bs: seq<seq<T>>, k: nat, j: nat)
    requires k < |bs| && j < |bs[k]|
    ensures |Concat(bs[..k])| + j < |Concat(bs)|
    ensures Concat(bs)[|Concat(bs[..k])| + j] == bs[k][j]
    decreases |bs|
  {
    var front := bs[..|bs| - 1];
    assert Concat(bs) == Concat(front) + bs[|bs| - 1];
    if k == |bs| - 1 {
      assert bs[..k] == front;
    } else {
      assert front[..k] == bs[..k];
      assert front[k] == bs[k];
      ConcatIndex(front, k, j);
    }
  }

  /** Groups a flat sequence of n * k items into n consecutive groups of k,
      as numpy's reshape(n, k, ...) does on the leading axis. */
  function Chunks<T>(s: seq<T>, n: nat, k: nat): (r: seq<seq<T>>)
    requires |s| == n * k
    ensures |r| == n
    ensures forall e :: 0 <= e < n ==> |r[e]| == k
    decreases n
  {
    if n == 0 then []
    else
      MulSucc(n, k);
      [s[..k]] + Chunks(s[k..], n - 1, k)
  }

  lemma MulSucc(n: nat, k: nat)
    requires n >= 1
    ensures n * k == (n - 1) * k + k
  {
  }

  /** Item p of group e is item e * k + p of the flat sequence. */
  lemma {:induction false} ChunksAt<T>(s: seq<T>, n: nat, k: nat, e: nat, p: nat)
    requires |s| == n * k && e < n && p < k
    ensures 0 <= e * k && e * k + p < |s| && |Chunks(s, n, k)[e]| == k
    ensures Chunks(s, n, k)[e][p] == s[e * k + p]
    decreases e
  {
    MulSucc(n, k);
    MulMono(0, e, k);
    var r := Chunks(s, n, k);
    var rest := Chunks(s[k..], n - 1, k);
    assert r == [s[..k]] + rest;
    if e == 0 {
      assert r[0] == s[..k];
    } else {
      ChunksAt(s[k..], n - 1, k, e - 1, p);
      MulSucc(e, k);
      var i := (e - 1) * k + p;
      assert r[e] == rest[e - 1];
      assert rest[e - 1][p] == s[k..][i];
      assert s[k..][i] == s[k + i];
      assert k + i == e * k + p;
    }
  }

  /** The first item of every group, as ChunksAt states for one. */
  lemma ChunksHeads<T>(s: seq<T>, n: nat, k: nat)
    requires |s| == n * k && k >= 1
    ensures forall e :: 0 <= e < n ==> 0 <= e * k < |s| && Chunks(s, n, k)[e][0] == s[e * k]
  {
    forall e | 0 <= e < n
      ensures 0 <= e * k < |s| && Chunks(s, n, k)[e][0] == s[e * k]
    {
      ChunksAt(s, n, k, e, 0);
    }
  }

  /** Offset p inside group e of n groups of k stays below n * k. */
  lemma MulLess(e: nat, n: nat, k: nat, p: nat)
    requires e < n && p < k
    ensures e * k + p < n * k
  {
    MulSucc(n, k);
    assert e * k <= (n - 1) * k by {
      MulMono(e, n - 1, k);
    }
  }

  lemma MulMono(a: nat, b: nat, k: nat)
    requires a <= b
    ensures a * k <= b * k
  {
  }

  /** Python's range(start, stop, step) / numpy's arange, as a sequence. */
  function Arange(start: int, stop: int, step: nat): (r: seq<int>)
    requires step > 0
    ensures forall i :: 0 <= i < |r| ==> r[i] == start + i * step
    decreases stop - start
  {
    if start >= stop then [] else [start] + Arange(start + step, stop, step)
  }

  /** With stop - start a multiple n of step, arange yields exactly n values. */
  lemma {:induction false} ArangeLength(start: int, n: nat, step: nat)
    requires step > 0
    ensures |Arange(start, start + n * step, step)| == n
    decreases n
  {
    if n > 0 {
      MulSucc(n, step);
      ArangeLength(start + step, n - 1, step);
    }
  }

  /** range(0, len, k) over a length divisible by k: one start per group,
      group e starting at e * k and ending inside the sequence. */
  lemma ArangeGroups(len: nat, k: nat)
    requires k > 0 && len % k == 0
    ensures |Arange(0, len, k)| == len / k
    ensures forall e :: 0 <= e < len / k ==> Arange(0, len, k)[e] == e * k && 0 <= e * k && e * k + k <= len
  {
    var n := len / k;
    DivisibleSplit(len, k);
    ArangeLength(0, n, k);
    var r := Arange(0, len, k);
    forall e | 0 <= e < n
      ensures r[e] == e * k && 0 <= e * k && e * k + k <= len
    {
      MulLess(e, n, k, k - 1);
      MulMono(0, e, k);
    }
  }

  /** A flat length divisible by k splits into exactly length / k groups. */
  lemma DivisibleSplit(len: nat, k: nat)
    requires k > 0 && len % k == 0
    ensures len == (len / k) * k
  {
  }

  predicate StrictlyIncreasing(s: seq<int>)
  {
    forall i, j :: 0 <= i < j < |s| ==> s[i] < s[j]
  }

  lemma NonEmptyHasMember(s: set<int>)
    requires s != {}
    ensures exists x :: x in s
  {
    if forall x :: x !in s {
      assert false;
    }
  }

  lemma MinExists(s: set<int>)
    requires s != {}
    ensures exists m :: m in s && forall x :: x in s ==> m <= x
    decreases |s|
  {
    NonEmptyHasMember(s);
    var x :| x in s;
    if s != {x} {
      MinExists(s - {x});
      var m :| m in s - {x} && forall y :: y in s - {x} ==> m <= y;
      var lo := if x < m then x else m;
      forall y | y in s
        ensures lo <= y
      {
        if y != x {
          assert y in s - {x};
        }
      }
    } else {
      forall y | y in s
        ensures x <= y
      {
        assert y in {x};
      }
    }
  }

  /** The least member of a non-empty set of integers. */
  function MinOf(s: set<int>): (lo: int)
    requires s != {}
    ensures lo in s && forall k :: k in s ==> lo <= k
  {
    MinExists(s);
    var lo :| lo in s && forall k :: k in s ==> lo <= k;
    lo
  }

  /** The members of a set of integers in ascending order. */
  function SortedSet(s: set<int>): (ks: seq<int>)
    ensures StrictlyIncreasing(ks)
    ensures forall k {:trigger k in ks} :: k in ks <==> k in s
    ensures forall i :: 0 <= i < |ks| ==> ks[i] in s
    ensures |ks| == |s|
    decreases |s|
  {
    if s == {} then []
    else
      var lo := MinOf(s);
      var tail := SortedSet(s - {lo});
      ConsIncreasing(lo, tail);
      [lo] + tail
  }

  lemma ConsIncreasing(lo: int, tail: seq<int>)
    requires StrictlyIncreasing(tail) && forall x :: x in tail ==> lo < x
    ensures StrictlyIncreasing([lo] + tail)
  {
    var ks := [lo] + tail;
    forall i, j | 0 <= i < j < |ks|
      ensures ks[i] < ks[j]
    {
      assert ks[j] == tail[j - 1];
      if i > 0 {
        assert ks[i] == tail[i - 1];
      } else {
        assert tail[j - 1] in tail;
      }
    }
  }

  /** The keys of a map in ascending order: Python's sorted(d) on a dict
      with integer keys. */
  function SortedKeys<V>(m: map<int, V>): (ks: seq<int>)
    ensures StrictlyIncreasing(ks)
    ensures forall k {:trigger k in ks} :: k in ks <==> k in m
    ensures forall i :: 0 <= i < |ks| ==> ks[i] in m
  {
    SortedSet(m.Keys)
  }

  /** sorted(d) is the only ascending listing of the keys of d. */
  lemma SortedKeysUnique<V>(m: map<int, V>, ks: seq<int>)
    requires StrictlyIncreasing(ks)
    requires forall k :: k in ks <==> k in m
    ensures ks == SortedKeys(m)
  {
    IncreasingUnique(ks, SortedKeys(m));
  }

  lemma HeadIsLeast(a: seq<int>, x: int)
    requires StrictlyIncreasing(a) && x in a
    ensures a[0] <= x
  {
    var i :| 0 <= i < |a| && a[i] == x;
    assert i == 0 || a[0] < a[i];
  }

  /** Two strictly increasing sequences with the same elements are equal,
      so the ascending key order is determined by the key set alone. */
  lemma {:induction false} IncreasingUnique(a: seq<int>, b: seq<int>)
    requires StrictlyIncreasing(a) && StrictlyIncreasing(b)
    requires forall x :: x in a <==> x in b
    ensures a == b
    decreases |a|
  {
    if |b| > 0 {
      assert b[0] in b;
      assert b[0] in a;
    }
    if |a| > 0 {
      assert a[0] in a;
      assert a[0] in b;
      assert b[0] in b;
      assert b[0] in a;
      HeadIsLeast(a, b[0]);
      HeadIsLeast(b, a[0]);
      forall x
        ensures x in a[1..] <==> x in b[1..]
      {
        if x in a[1..] {
          var i :| 1 <= i < |a| && a[i] == x;
          assert x in a && a[0] < x;
          assert x in b;
          var j :| 0 <= j < |b| && b[j] == x;
          assert j != 0;
        }
        if x in b[1..] {
          var i :| 1 <= i < |b| && b[i] == x;
          assert x in b && b[0] < x;
          assert x in a;
          var j :| 0 <= j < |a| && a[j] == x;
          assert j != 0;
        }
      }
      IncreasingUnique(a[1..], b[1..]);
      assert a == [a[0]] + a[1..];
      assert b == [b[0]] + b[1..];
    }
  }
}

=== FILE: writer.dfy ===
/** write_msc_h5: the driver. It walks a fixed plan of result tables in
    source order (seven nodal tables, then the STRESS and the STRAIN element
    tables, then the element forces), calls the matching builder for every
    table whose result dictionary is non-empty, threads one DOMAINS registry
    through all of them, and writes the DOMAINS table last, only when some
    domain was registered. The HDF5 file is a map from dataset paths to
    datasets. */
module Writer {
  import opened Seqs
  import opened Domains
  import opened Op2
  import opened Records
  import opened Index
  import opened Builders

  // ---------------------------------------------------------------------
  // Dataset paths and the file
  // ---------------------------------------------------------------------

  datatype NodalName =
    | DISPLACEMENT | EIGENVECTOR | SPC_FORCE | MPC_FORCE | VELOCITY | ACCELERATION | APPLIED_LOAD

  /** The two element result categories, written STRESS and STRAIN in paths. */
  datatype Kind = Stress | Strain

  datatype Elem = QUAD4 | TRIA3 | BAR | ROD | CONROD | BUSH | HEXA | PENTA | TETRA

  /** A result table's path:
      /NASTRAN/RESULT/NODAL/<name>,
      /NASTRAN/RESULT/ELEMENTAL/<STRESS|STRAIN>/<elem>,
      /NASTRAN/RESULT/ELEMENTAL/ELEMENT_FORCE/<elem>. */
  datatype TablePath =
    | NodalTable(name: NodalName)
    | ElementalTable(kind: Kind, elem: Elem)
    | ForceTable(elem: Elem)

  /** A dataset of the file: a result table, its /INDEX twin (the table's
      path prefixed with /INDEX), or /NASTRAN/RESULT/DOMAINS. */
  datatype DatasetPath = Data(table: TablePath) | IndexOf(table: TablePath) | DomainsPath

  datatype Dataset =
    | RecordTable(rows: seq<Record>)
    | IndexTable(entries: seq<IndexEntry>)
    | DomainTable(domains: seq<DomainRecord>)

  type H5File = map<DatasetPath, Dataset>

  /** _save: nothing when no block was collected; otherwise the concatenated
      blocks at the table's path and the INDEX entries at its /INDEX path. */
  function Save(file: H5File, path: TablePath, acc: Acc): (r: H5File)
    ensures |acc.blocks| == 0 ==> r == file
    ensures |acc.blocks| > 0 ==>
              && Data(path) in r && r[Data(path)] == RecordTable(Concat(acc.blocks))
              && IndexOf(path) in r && r[IndexOf(path)] == IndexTable(acc.index)
    ensures forall p :: p != Data(path) && p != IndexOf(path) ==>
              (p in r <==> p in file) && (p in file ==> r[p] == file[p])
  {
    if |acc.blocks| == 0 then file
    else file[Data(path) := RecordTable(Rows(acc))][IndexOf(path) := IndexTable(acc.index)]
  }

  /** The file holds what _save writes for a builder's accumulator: the
      table and its /INDEX exactly when a block was collected, with the
      concatenated blocks and the entries. */
  ghost predicate HoldsTable(file: H5File, path: TablePath, acc: Acc)
  {
    && (Data(path) in file <==> |acc.blocks| > 0)
    && (IndexOf(path) in file <==> |acc.blocks| > 0)
    && (|acc.blocks| > 0 ==>
          file[Data(path)] == RecordTable(Rows(acc)) && file[IndexOf(path)] == IndexTable(acc.index))
  }

  // ---------------------------------------------------------------------
  // The OP2 model and the plan
  // ---------------------------------------------------------------------

  /** The OP2 model as the writer sees it: result dictionaries (subcase ->
      result object) by attribute name. */
  datatype Op2Model = Op2Model(tables: map<string, map<int, ResultObject>>)

  /** getattr(op2, attr, {}). */
  function Dict(op2: Op2Model, attr: string): (d: map<int, ResultObject>)
  {
    if attr in op2.tables then op2.tables[attr] else map[]
  }

  /** One table of the plan: where it goes, which attribute feeds it and
      which builder (with which record layout) packs it. */
  datatype Job = Job(path: TablePath, attr: string, cat: Category)

  function NodalJobs(): seq<Job>
  {
    [ Job(NodalTable(DISPLACEMENT), "displacements", Nodal),
      Job(NodalTable(EIGENVECTOR), "eigenvectors", Nodal),
      Job(NodalTable(SPC_FORCE), "spc_forces", Nodal),
      Job(NodalTable(MPC_FORCE), "mpc_forces", Nodal),
      Job(NodalTable(VELOCITY), "velocities", Nodal),
      Job(NodalTable(ACCELERATION), "accelerations", Nodal),
      Job(NodalTable(APPLIED_LOAD), "load_vectors", Nodal) ]
  }

  function Lower(kind: Kind): string
  {
    match kind
    case Stress => "stress"
    case Strain => "strain"
  }

  /** The element tables of one category: plates, 1-D elements (strain
      tables reuse the stress layouts), solids. */
  function ElementalJobs(kind: Kind): seq<Job>
  {
    var low := Lower(kind);
    [ Job(ElementalTable(kind, QUAD4), "cquad4_" + low, Plate),
      Job(ElementalTable(kind, TRIA3), "ctria3_" + low, Plate),
      Job(ElementalTable(kind, BAR), "cbar_" + low, OneD(BAR_STRESS_FIELDS, BAR_STRESS_COLS)),
      Job(ElementalTable(kind, ROD), "crod_" + low, OneD(ROD_STRESS_FIELDS, ROD_STRESS_COLS)),
      Job(ElementalTable(kind, CONROD), "conrod_" + low, OneD(ROD_STRESS_FIELDS, ROD_STRESS_COLS)),
      Job(ElementalTable(kind, BUSH), "cbush_" + low, OneD(BUSH_STRESS_FIELDS, BUSH_STRESS_COLS)),
      Job(ElementalTable(kind, HEXA), "chexa_" + low, Solid(HEXA_POINTS)),
      Job(ElementalTable(kind, PENTA), "cpenta_" + low, Solid(PENTA_POINTS)),
      Job(ElementalTable(kind, TETRA), "ctetra_" + low, Solid(TETRA_POINTS)) ]
  }

  function ForceJobs(): seq<Job>
  {
    [ Job(ForceTable(BAR), "cbar_force", OneD(BAR_FORCE_FIELDS, BAR_FORCE_COLS)),
      Job(ForceTable(ROD), "crod_force", OneD(ROD_FORCE_FIELDS, ROD_FORCE_COLS)),
      Job(ForceTable(BUSH), "cbush_force", OneD(BUSH_FORCE_FIELDS, BUSH_FORCE_COLS)),
      Job(ForceTable(QUAD4), "cquad4_force", OneD(QUAD4_FORCE_FIELDS, QUAD4_FORCE_COLS)) ]
  }

  /** All tables, in the order write_msc_h5 visits them. */
  function Plan(): (p: seq<Job>)
    ensures |p| == 29
  {
    NodalJobs() + ElementalJobs(Stress) + ElementalJobs(Strain) + ForceJobs()
  }

  /** Position of a plan path in the plan, used to tell plan paths apart. */
  function Rank(p: TablePath): nat
  {
    match p
    case NodalTable(n) => NodalRank(n)
    case ElementalTable(kind, e) =>
      (if kind == Stress then 7 else 16) + ElemRank(e)
    case ForceTable(e) =>
      25 + (match e case BAR => 0 case ROD => 1 case BUSH => 2 case _ => 3)
  }

  function NodalRank(n: NodalName): nat
  {
    match n
    case DISPLACEMENT => 0 case EIGENVECTOR => 1 case SPC_FORCE => 2 case MPC_FORCE => 3
    case VELOCITY => 4 case ACCELERATION => 5 case APPLIED_LOAD => 6
  }

  function ElemRank(e: Elem): nat
  {
    match e
    case QUAD4 => 0 case TRIA3 => 1 case BAR => 2 case ROD => 3 case CONROD => 4
    case BUSH => 5 case HEXA => 6 case PENTA => 7 case TETRA => 8
  }

  lemma NodalRanks()
    ensures forall i :: 0 <= i < |NodalJobs()| ==> Rank(NodalJobs()[i].path) == i
  {
  }

  lemma ElementalRanks(kind: Kind)
    ensures forall i :: 0 <= i < |ElementalJobs(kind)| ==>
              Rank(ElementalJobs(kind)[i].path) == (if kind == Stress then 7 else 16) + i
  {
  }

  lemma ForceRanks()
    ensures forall i :: 0 <= i < |ForceJobs()| ==> Rank(ForceJobs()[i].path) == 25 + i
  {
  }

  lemma PlanRanks()
    ensures forall i :: 0 <= i < |Plan()| ==> Rank(Plan()[i].path) == i
  {
    var n := NodalJobs();
    var st := ElementalJobs(Stress);
    var sn := ElementalJobs(Strain);
    var f := ForceJobs();
    var p := n + st + sn + f;
    NodalRanks();
    ElementalRanks(Stress);
    ElementalRanks(Strain);
    ForceRanks();
    forall i | 0 <= i < |p|
      ensures Rank(p[i].path) == i
    {
      if i < 7 {
        assert p[i] == n[i];
      } else if i < 16 {
        assert p[i] == st[i - 7];
      } else if i < 25 {
        assert p[i] == sn[i - 16];
      } else {
        assert p[i] == f[i - 25];
      }
    }
  }

  /** No two tables of the plan share a path, so no create_dataset call of
      the driver ever meets an existing dataset. */
  lemma PlanPathsDistinct()
    ensures forall i, j :: 0 <= i < j < |Plan()| ==> Plan()[i].path != Plan()[j].path
  {
    PlanRanks();
  }

  // ---------------------------------------------------------------------
  // The driver
  // ---------------------------------------------------------------------

  /** Every table of a job list has a dictionary its builder can pack. */
  ghost predicate JobsWellFormed(op2: Op2Model, jobs: seq<Job>)
  {
    forall i :: 0 <= i < |jobs| ==> DictWellFormed(jobs[i].cat, Dict(op2, jobs[i].attr))
  }

  /** The registry and the file after some jobs. */
  datatype Output = Output(registry: Registry, file: H5File)

  /** The driver's loops over the first m jobs, from a fresh registry and
      an empty file: a job whose dictionary is empty is skipped (`if
      rdict:`); otherwise its builder runs with the registry so far and
      saves its table. */
  function Write(op2: Op2Model, jobs: seq<Job>, m: nat): Output
    requires JobsWellFormed(op2, jobs) && m <= |jobs|
  {
    if m == 0 then Output(EmptyRegistry, map[])
    else WriteJob(op2, Write(op2, jobs, m - 1), jobs[m - 1])
  }

  /** One job of the driver's loops. */
  function WriteJob(op2: Op2Model, prev: Output, j: Job): Output
    requires DictWellFormed(j.cat, Dict(op2, j.attr))
  {
    var dict := Dict(op2, j.attr);
    if |dict| == 0 then prev
    else
      var b := BuildTable(j.cat, dict, prev.registry);
      Output(b.registry, Save(prev.file, j.path, b.acc))
  }

  /** The driver over a job list: every job, then /NASTRAN/RESULT/DOMAINS
      when the registry holds at least one domain. */
  function WriteFile(op2: Op2Model, jobs: seq<Job>): H5File
    requires JobsWellFormed(op2, jobs)
  {
    var o := Write(op2, jobs, |jobs|);
    var domains := ToArray(o.registry);
    if |domains| > 0 then o.file[DomainsPath := DomainTable(domains)] else o.file
  }

  /** write_msc_h5: the driver over the plan. */
  function WriteMscH5(op2: Op2Model): H5File
    requires JobsWellFormed(op2, Plan())
  {
    WriteFile(op2, Plan())
  }

  // ---------------------------------------------------------------------
  // One job
  // ---------------------------------------------------------------------

  /** An empty dictionary schedules nothing. */
  lemma EmptySchedule(cat: Category, dict: map<int, ResultObject>)
    requires |dict| == 0
    ensures Schedule(cat, dict) == []
  {
    var s := Schedule(cat, dict);
    if |s| > 0 {
      assert false;
    }
  }

  /** One job adds at most its own table and /INDEX. */
  lemma WriteJobOnly(op2: Op2Model, prev: Output, j: Job)
    requires DictWellFormed(j.cat, Dict(op2, j.attr))
    ensures forall p :: p in WriteJob(op2, prev, j).file ==> p in prev.file || p == Data(j.path) || p == IndexOf(j.path)
  {
  }

  /** One job leaves every other dataset of the file as it was. */
  lemma WriteJobFrame(op2: Op2Model, prev: Output, j: Job, p: DatasetPath)
    requires DictWellFormed(j.cat, Dict(op2, j.attr))
    requires p != Data(j.path) && p != IndexOf(j.path)
    ensures var file := WriteJob(op2, prev, j).file;
            (p in file <==> p in prev.file) && (p in prev.file ==> file[p] == prev.file[p])
  {
  }

  /** One job writes its table and /INDEX iff its builder collected a block,
      and then they hold exactly the builder's rows and entries. */
  lemma WriteJobTable(op2: Op2Model, prev: Output, j: Job)
    requires DictWellFormed(j.cat, Dict(op2, j.attr))
    requires Data(j.path) !in prev.file && IndexOf(j.path) !in prev.file
    ensures HoldsTable(WriteJob(op2, prev, j).file, j.path, BuildTable(j.cat, Dict(op2, j.attr), prev.registry).acc)
  {
    var dict := Dict(op2, j.attr);
    if |dict| == 0 {
      EmptySchedule(j.cat, dict);
    }
  }

  /** One job keeps every domain ID already handed out, and the DOMAINS
      rows only grow. */
  lemma WriteJobKeepsIds(op2: Op2Model, prev: Output, j: Job)
    requires DictWellFormed(j.cat, Dict(op2, j.attr))
    ensures Extends(prev.registry, WriteJob(op2, prev, j).registry)
  {
    var dict := Dict(op2, j.attr);
    if |dict| > 0 {
      BuildTableShape(j.cat, dict, prev.registry);
      RegisterAllKeepsIds(prev.registry, CallsOf(Schedule(j.cat, dict)));
    }
  }

  /** One job keeps the registry valid. */
  lemma WriteJobValid(op2: Op2Model, prev: Output, j: Job)
    requires DictWellFormed(j.cat, Dict(op2, j.attr)) && Valid(prev.registry)
    ensures Valid(WriteJob(op2, prev, j).registry)
  {
    var dict := Dict(op2, j.attr);
    if |dict| > 0 {
      BuildTableShape(j.cat, dict, prev.registry);
      RegisterAllValid(prev.registry, CallsOf(Schedule(j.cat, dict)));
    }
  }

  // ---------------------------------------------------------------------
  // A run of jobs
  // ---------------------------------------------------------------------

  predicate DistinctPaths(jobs: seq<Job>)
  {
    forall a, b :: 0 <= a < b < |jobs| ==> jobs[a].path != jobs[b].path
  }

  /** The first m jobs write only their own tables and /INDEX twins. */
  lemma {:induction false} WriteOnly(op2: Op2Model, jobs: seq<Job>, m: nat)
    requires JobsWellFormed(op2, jobs) && m <= |jobs|
    ensures forall p :: p in Write(op2, jobs, m).file ==>
              (p.Data? || p.IndexOf?) && exists i :: 0 <= i < m && jobs[i].path == p.table
    decreases m
  {
    if m > 0 {
      WriteOnly(op2, jobs, m - 1);
      WriteOnlyStep(op2, jobs, m);
    }
  }

  /** WriteOnly for m jobs, from the same fact for m - 1. */
  lemma WriteOnlyStep(op2: Op2Model, jobs: seq<Job>, m: nat)
    requires JobsWellFormed(op2, jobs) && 0 < m <= |jobs|
    requires forall p :: p in Write(op2, jobs, m - 1).file ==>
               (p.Data? || p.IndexOf?) && exists i :: 0 <= i < m - 1 && jobs[i].path == p.table
    ensures forall p :: p in Write(op2, jobs, m).file ==>
              (p.Data? || p.IndexOf?) && exists i :: 0 <= i < m && jobs[i].path == p.table
  {
    var prev := Write(op2, jobs, m - 1);
    WriteJobOnly(op2, prev, jobs[m - 1]);
    forall p | p in Write(op2, jobs, m).file
      ensures (p.Data? || p.IndexOf?) && exists i :: 0 <= i < m && jobs[i].path == p.table
    {
      if p !in prev.file {
        assert jobs[m - 1].path == p.table;
      }
    }
  }

  /** Before job q runs, its table and /INDEX paths are still free. */
  lemma {:induction false} NotYetWritten(op2: Op2Model, jobs: seq<Job>, q: nat, m: nat)
    requires JobsWellFormed(op2, jobs) && DistinctPaths(jobs) && m <= q < |jobs|
    ensures Data(jobs[q].path) !in Write(op2, jobs, m).file
    ensures IndexOf(jobs[q].path) !in Write(op2, jobs, m).file
    decreases m
  {
    if m > 0 {
      var prev := Write(op2, jobs, m - 1);
      NotYetWritten(op2, jobs, q, m - 1);
      WriteJobFrame(op2, prev, jobs[m - 1], Data(jobs[q].path));
      WriteJobFrame(op2, prev, jobs[m - 1], IndexOf(jobs[q].path));
    }
  }

  /** After the first m jobs, job q < m has written its table iff its
      builder collected a block, and then the table holds exactly that
      builder's concatenated blocks and INDEX entries, built with the
      registry the q jobs before it left. */
  lemma WriteTable(op2: Op2Model, jobs: seq<Job>, q: nat, m: nat)
    requires JobsWellFormed(op2, jobs) && DistinctPaths(jobs) && q < m <= |jobs|
    ensures HoldsTable(Write(op2, jobs, m).file, jobs[q].path,
                       BuildTable(jobs[q].cat, Dict(op2, jobs[q].attr), Write(op2, jobs, q).registry).acc)
  {
    var acc := BuildTable(jobs[q].cat, Dict(op2, jobs[q].attr), Write(op2, jobs, q).registry).acc;
    WriteTableOwn(op2, jobs, q);
    WriteTableKept(op2, jobs, q, m, acc);
  }

  /** Once job q has written its table, the later jobs leave it as it was. */
  lemma WriteTableKept(op2: Op2Model, jobs: seq<Job>, q: nat, m: nat, acc: Acc)
    requires JobsWellFormed(op2, jobs) && DistinctPaths(jobs) && q < m <= |jobs|
    requires HoldsTable(Write(op2, jobs, q + 1).file, jobs[q].path, acc)
    ensures HoldsTable(Write(op2, jobs, m).file, jobs[q].path, acc)
  {
    WritePathKept(op2, jobs, q, m, Data(jobs[q].path));
    WritePathKept(op2, jobs, q, m, IndexOf(jobs[q].path));
    HoldsTableFrame(Write(op2, jobs, q + 1).file, Write(op2, jobs, m).file, jobs[q].path, acc);
  }

  /** The jobs after job q leave the dataset at one of job q's paths as job
      q left it. */
  lemma {:induction false} WritePathKept(op2: Op2Model, jobs: seq<Job>, q: nat, m: nat, p: DatasetPath)
    requires JobsWellFormed(op2, jobs) && DistinctPaths(jobs) && q < m <= |jobs|
    requires p == Data(jobs[q].path) || p == IndexOf(jobs[q].path)
    ensures p in Write(op2, jobs, m).file <==> p in Write(op2, jobs, q + 1).file
    ensures p in Write(op2, jobs, q + 1).file ==> Write(op2, jobs, m).file[p] == Write(op2, jobs, q + 1).file[p]
    decreases m
  {
    if q + 1 < m {
      WritePathKept(op2, jobs, q, m - 1, p);
      WriteJobFrame(op2, Write(op2, jobs, m - 1), jobs[m - 1], p);
    }
  }

  /** Job q's own step writes its table from the registry the jobs before it
      left. */
  lemma WriteTableOwn(op2: Op2Model, jobs: seq<Job>, q: nat)
    requires JobsWellFormed(op2, jobs) && DistinctPaths(jobs) && q < |jobs|
    ensures HoldsTable(Write(op2, jobs, q + 1).file, jobs[q].path,
                       BuildTable(jobs[q].cat, Dict(op2, jobs[q].attr), Write(op2, jobs, q).registry).acc)
  {
    NotYetWritten(op2, jobs, q, q);
    WriteJobTable(op2, Write(op2, jobs, q), jobs[q]);
  }

  /** Whether a file holds a table depends only on the table's two paths. */
  lemma HoldsTableFrame(file: H5File, file': H5File, path: TablePath, acc: Acc)
    requires HoldsTable(file, path, acc)
    requires Data(path) in file' <==> Data(path) in file
    requires IndexOf(path) in file' <==> IndexOf(path) in file
    requires Data(path) in file ==> file'[Data(path)] == file[Data(path)]
    requires IndexOf(path) in file ==> file'[IndexOf(path)] == file[IndexOf(path)]
    ensures HoldsTable(file', path, acc)
  {
  }

  /** Domain IDs handed out by the first m0 jobs survive all later ones,
      and the DOMAINS rows only grow. */
  lemma {:induction false} WriteKeepsIds(op2: Op2Model, jobs: seq<Job>, m0: nat, m: nat)
    requires JobsWellFormed(op2, jobs) && m0 <= m <= |jobs|
    ensures Extends(Write(op2, jobs, m0).registry, Write(op2, jobs, m).registry)
    decreases m
  {
    if m0 < m {
      WriteKeepsIds(op2, jobs, m0, m - 1);
      WriteKeepsIdsStep(op2, jobs, m0, m);
    }
  }

  /** WriteKeepsIds for m jobs, from the same fact for m - 1. */
  lemma WriteKeepsIdsStep(op2: Op2Model, jobs: seq<Job>, m0: nat, m: nat)
    requires JobsWellFormed(op2, jobs) && m0 < m <= |jobs|
    requires Extends(Write(op2, jobs, m0).registry, Write(op2, jobs, m - 1).registry)
    ensures Extends(Write(op2, jobs, m0).registry, Write(op2, jobs, m).registry)
  {
    WriteJobKeepsIds(op2, Write(op2, jobs, m - 1), jobs[m - 1]);
    ExtendsTrans(Write(op2, jobs, m0).registry, Write(op2, jobs, m - 1).registry, Write(op2, jobs, m).registry);
  }

  /** The registry the driver threads through the jobs stays valid. */
  lemma {:induction false} WriteValid(op2: Op2Model, jobs: seq<Job>, m: nat)
    requires JobsWellFormed(op2, jobs) && m <= |jobs|
    ensures Valid(Write(op2, jobs, m).registry)
    decreases m
  {
    if m == 0 {
      EmptyValid();
    } else {
      WriteValid(op2, jobs, m - 1);
      WriteJobValid(op2, Write(op2, jobs, m - 1), jobs[m - 1]);
    }
  }

  /** One job registers a domain iff its schedule is non-empty: the
      DOMAINS rows are non-empty afterwards iff they were before or the job
      scheduled a step. */
  lemma WriteJobRecords(op2: Op2Model, prev: Output, j: Job)
    requires DictWellFormed(j.cat, Dict(op2, j.attr)) && Valid(prev.registry)
    ensures |WriteJob(op2, prev, j).registry.records| > 0 <==>
              |prev.registry.records| > 0 || Scheduled(op2, j)
  {
    var dict := Dict(op2, j.attr);
    var s := Schedule(j.cat, dict);
    ScheduleNonEmpty(j.cat, dict);
    if |dict| == 0 {
      EmptySchedule(j.cat, dict);
    } else {
      var b := BuildTable(j.cat, dict, prev.registry);
      BuildTableShape(j.cat, dict, prev.registry);
      RegisterAllKeepsIds(prev.registry, CallsOf(s));
      if |s| > 0 {
        BuildTableEntry(j.cat, dict, prev.registry, 0);
        RegisterAllValid(prev.registry, CallsOf(s));
        assert KeyOf(s[0]) in b.registry.ids;
      } else {
        assert CallsOf(s) == [];
      }
    }
  }

  /** A job's builder visits at least one (subcase, step). */
  predicate Scheduled(op2: Op2Model, j: Job)
  {
    Visits(j.cat, Dict(op2, j.attr))
  }

  /** For each of the first m jobs, whether it scheduled a step. */
  function ScheduledFlags(op2: Op2Model, jobs: seq<Job>, m: nat): (f: seq<bool>)
    requires m <= |jobs|
    ensures |f| == m
    ensures forall q :: 0 <= q < m ==> (f[q] <==> Scheduled(op2, jobs[q]))
  {
    if m == 0 then [] else ScheduledFlags(op2, jobs, m - 1) + [Scheduled(op2, jobs[m - 1])]
  }

  /** Some job among the first m scheduled a step. */
  predicate AnyScheduled(op2: Op2Model, jobs: seq<Job>, m: nat)
    requires m <= |jobs|
  {
    true in ScheduledFlags(op2, jobs, m)
  }

  lemma AnyScheduledExists(op2: Op2Model, jobs: seq<Job>, m: nat)
    requires m <= |jobs|
    ensures AnyScheduled(op2, jobs, m) <==> exists q :: 0 <= q < m && Scheduled(op2, jobs[q])
  {
    var f := ScheduledFlags(op2, jobs, m);
    if AnyScheduled(op2, jobs, m) {
      var q :| 0 <= q < m && f[q];
    }
    forall q | 0 <= q < m && Scheduled(op2, jobs[q])
      ensures AnyScheduled(op2, jobs, m)
    {
      assert f[q];
    }
  }

  /** After the first m jobs the registry holds a domain iff one of them
      scheduled a step. */
  lemma {:induction false} WriteRegistersAny(op2: Op2Model, jobs: seq<Job>, m: nat)
    requires JobsWellFormed(op2, jobs) && m <= |jobs|
    ensures |Write(op2, jobs, m).registry.records| > 0 <==> AnyScheduled(op2, jobs, m)
    decreases m
  {
    if m > 0 {
      WriteRegistersAny(op2, jobs, m - 1);
      WriteRegistersAnyStep(op2, jobs, m);
    }
  }

  /** WriteRegistersAny for m jobs, from the same fact for m - 1. */
  lemma WriteRegistersAnyStep(op2: Op2Model, jobs: seq<Job>, m: nat)
    requires JobsWellFormed(op2, jobs) && 0 < m <= |jobs|
    requires |Write(op2, jobs, m - 1).registry.records| > 0 <==> AnyScheduled(op2, jobs, m - 1)
    ensures |Write(op2, jobs, m).registry.records| > 0 <==> AnyScheduled(op2, jobs, m)
  {
    WriteValid(op2, jobs, m - 1);
    WriteJobRecords(op2, Write(op2, jobs, m - 1), jobs[m - 1]);
    AnyScheduledSnoc(op2, jobs, m);
  }

  /** Some job among the first m scheduled a step iff one among the first
      m - 1 did or job m - 1 did. */
  lemma AnyScheduledSnoc(op2: Op2Model, jobs: seq<Job>, m: nat)
    requires 0 < m <= |jobs|
    ensures AnyScheduled(op2, jobs, m) <==> AnyScheduled(op2, jobs, m - 1) || Scheduled(op2, jobs[m - 1])
  {
    var f := ScheduledFlags(op2, jobs, m);
    assert f == ScheduledFlags(op2, jobs, m - 1) + [Scheduled(op2, jobs[m - 1])];
  }

  // ---------------------------------------------------------------------
  // The file the driver produces
  // ---------------------------------------------------------------------

  /** Every table of a job list with distinct paths is written, with its
      /INDEX, iff its builder scheduled at least one (subcase, step); it
      then holds exactly that builder's rows and entries, built with the
      registry the tables before it left. */
  lemma FileTable(op2: Op2Model, jobs: seq<Job>, q: nat)
    requires JobsWellFormed(op2, jobs) && DistinctPaths(jobs) && q < |jobs|
    ensures var j := jobs[q];
            var f := WriteFile(op2, jobs);
            && HoldsTable(f, j.path, BuildTable(j.cat, Dict(op2, j.attr), Write(op2, jobs, q).registry).acc)
            && (Data(j.path) in f <==> |Schedule(j.cat, Dict(op2, j.attr))| > 0)
  {
    var j := jobs[q];
    var acc := BuildTable(j.cat, Dict(op2, j.attr), Write(op2, jobs, q).registry).acc;
    WriteTable(op2, jobs, q, |jobs|);
    FileKeepsTable(op2, jobs, j.path, acc);
  }

  /** Adding DOMAINS leaves every table, and its /INDEX, as the jobs left
      them. */
  lemma FileKeepsTable(op2: Op2Model, jobs: seq<Job>, path: TablePath, acc: Acc)
    requires JobsWellFormed(op2, jobs) && HoldsTable(Write(op2, jobs, |jobs|).file, path, acc)
    ensures HoldsTable(WriteFile(op2, jobs), path, acc)
  {
    HoldsTableFrame(Write(op2, jobs, |jobs|).file, WriteFile(op2, jobs), path, acc);
  }

  /** The file holds nothing but the jobs' tables, their /INDEX twins and
      DOMAINS. */
  lemma FileOnlyJobs(op2: Op2Model, jobs: seq<Job>)
    requires JobsWellFormed(op2, jobs)
    ensures forall p :: p in WriteFile(op2, jobs) && p != DomainsPath ==>
              (p.Data? || p.IndexOf?) && exists q :: 0 <= q < |jobs| && jobs[q].path == p.table
  {
    WriteOnly(op2, jobs, |jobs|);
  }

  /** A written table's INDEX tiles it, has one entry per scheduled
      (subcase, step), and every row inside an entry's range carries that
      entry's DOMAIN_ID. */
  lemma FileTableIndexed(op2: Op2Model, jobs: seq<Job>, q: nat)
    requires JobsWellFormed(op2, jobs) && DistinctPaths(jobs) && q < |jobs|
    requires Data(jobs[q].path) in WriteFile(op2, jobs)
    ensures var j := jobs[q];
            var f := WriteFile(op2, jobs);
            && IndexOf(j.path) in f
            && f[Data(j.path)].RecordTable? && f[IndexOf(j.path)].IndexTable?
            && |f[IndexOf(j.path)].entries| == |Schedule(j.cat, Dict(op2, j.attr))|
            && IndexedBy(f[Data(j.path)].rows, f[IndexOf(j.path)].entries)
  {
    var j := jobs[q];
    var dict := Dict(op2, j.attr);
    var reg := Write(op2, jobs, q).registry;
    var acc := BuildTable(j.cat, dict, reg).acc;
    FileTable(op2, jobs, q);
    BuildTableShape(j.cat, dict, reg);
    ConsistentIndexed(acc);
  }

  /** Entry k of job q's INDEX names the ID the registry holds for the
      (subcase, step) of scheduled step k once job q is done. */
  lemma JobEntryId(op2: Op2Model, jobs: seq<Job>, q: nat, k: nat)
    requires JobsWellFormed(op2, jobs) && q < |jobs|
    requires k < |Schedule(jobs[q].cat, Dict(op2, jobs[q].attr))|
    ensures var j := jobs[q];
            var b := BuildTable(j.cat, Dict(op2, j.attr), Write(op2, jobs, q).registry);
            var key := KeyOf(Schedule(j.cat, Dict(op2, j.attr))[k]);
            var r := Write(op2, jobs, q + 1).registry;
            && k < |b.acc.index|
            && key in r.ids && b.acc.index[k].domainId == r.ids[key]
  {
    var j := jobs[q];
    var dict := Dict(op2, j.attr);
    BuildTableEntry(j.cat, dict, Write(op2, jobs, q).registry, k);
    if |dict| == 0 {
      EmptySchedule(j.cat, dict);
    }
  }

  /** Every INDEX entry of a written table resolves in DOMAINS: its
      DOMAIN_ID d names row d of the DOMAINS table, whose ID is d and whose
      SUBCASE is the subcase of the step the entry was written for. */
  lemma FileIndexResolves(op2: Op2Model, jobs: seq<Job>, q: nat, k: nat)
    requires JobsWellFormed(op2, jobs) && DistinctPaths(jobs) && q < |jobs|
    requires k < |Schedule(jobs[q].cat, Dict(op2, jobs[q].attr))|
    ensures var j := jobs[q];
            var f := WriteFile(op2, jobs);
            && IndexOf(j.path) in f && f[IndexOf(j.path)].IndexTable?
            && k < |f[IndexOf(j.path)].entries|
            && DomainsPath in f && f[DomainsPath].DomainTable?
            && Resolves(f[DomainsPath].domains, f[IndexOf(j.path)].entries[k].domainId,
                        Schedule(j.cat, Dict(op2, j.attr))[k].subcase)
  {
    var j := jobs[q];
    var s := Schedule(j.cat, Dict(op2, j.attr));
    var fin := Write(op2, jobs, |jobs|).registry;
    var key := KeyOf(s[k]);
    FileTable(op2, jobs, q);
    JobEntryId(op2, jobs, q, k);
    WriteKeepsIds(op2, jobs, q + 1, |jobs|);
    WriteValid(op2, jobs, |jobs|);
    ValidResolves(fin, key);
  }

  /** DOMAINS is written iff some table was, and it then lists the
      registered domains with IDs 1, 2, 3, ... */
  lemma FileDomains(op2: Op2Model, jobs: seq<Job>)
    requires JobsWellFormed(op2, jobs) && DistinctPaths(jobs)
    ensures var f := WriteFile(op2, jobs);
            && (DomainsPath in f <==> exists q :: 0 <= q < |jobs| && Data(jobs[q].path) in f)
            && (DomainsPath in f ==>
                  && f[DomainsPath] == DomainTable(Write(op2, jobs, |jobs|).registry.records)
                  && forall i :: 0 <= i < |f[DomainsPath].domains| ==> f[DomainsPath].domains[i].id == i + 1)
  {
    FileDomainsContent(op2, jobs);
    WriteRegistersAny(op2, jobs, |jobs|);
    AnyScheduledExists(op2, jobs, |jobs|);
    FileTablesScheduled(op2, jobs);
  }

  /** DOMAINS is written iff the final registry holds a domain, and then it
      holds the registry's rows, numbered from 1. */
  lemma FileDomainsContent(op2: Op2Model, jobs: seq<Job>)
    requires JobsWellFormed(op2, jobs)
    ensures var f := WriteFile(op2, jobs);
            var reg := Write(op2, jobs, |jobs|).registry;
            && (DomainsPath in f <==> |reg.records| > 0)
            && (DomainsPath in f ==>
                  && f[DomainsPath] == DomainTable(reg.records)
                  && forall i :: 0 <= i < |f[DomainsPath].domains| ==> f[DomainsPath].domains[i].id == i + 1)
  {
    var o := Write(op2, jobs, |jobs|);
    WriteOnly(op2, jobs, |jobs|);
    assert DomainsPath !in o.file;
    WriteValid(op2, jobs, |jobs|);
  }

  /** Some table is written iff some job scheduled a step. */
  lemma FileTablesScheduled(op2: Op2Model, jobs: seq<Job>)
    requires JobsWellFormed(op2, jobs) && DistinctPaths(jobs)
    ensures (exists q :: 0 <= q < |jobs| && Data(jobs[q].path) in WriteFile(op2, jobs)) <==>
            (exists q :: 0 <= q < |jobs| && Scheduled(op2, jobs[q]))
  {
    forall q | 0 <= q < |jobs|
      ensures Data(jobs[q].path) in WriteFile(op2, jobs) <==> Scheduled(op2, jobs[q])
    {
      FileTable(op2, jobs, q);
      ScheduleNonEmpty(jobs[q].cat, Dict(op2, jobs[q].attr));
    }
  }

  // ---------------------------------------------------------------------
  // Domain numbering across the whole conversion
  // ---------------------------------------------------------------------

  /** The get_id calls of each of the first m jobs, one list per job. A
      skipped job (empty dictionary) schedules nothing and so makes no
      call. */
  function JobCallLists(op2: Op2Model, jobs: seq<Job>, m: nat): (css: seq<seq<Call>>)
    requires m <= |jobs|
    ensures |css| == m
  {
    if m == 0 then [] else JobCallLists(op2, jobs, m - 1) + [JobCalls(op2, jobs[m - 1])]
  }

  /** The get_id calls of the first m jobs, in the order the driver makes
      them: each job's scheduled steps, one job after another. */
  function AllCalls(op2: Op2Model, jobs: seq<Job>, m: nat): seq<Call>
    requires m <= |jobs|
  {
    Concat(JobCallLists(op2, jobs, m))
  }

  /** The get_id calls of one job's builder, in order. */
  function JobCalls(op2: Op2Model, j: Job): seq<Call>
  {
    CallsOf(Schedule(j.cat, Dict(op2, j.attr)))
  }

  /** The registry the driver threads through the first m jobs is the one
      their get_id calls produce, in order, from an empty registry. */
  lemma WriteRegistry(op2: Op2Model, jobs: seq<Job>, m: nat)
    requires JobsWellFormed(op2, jobs) && m <= |jobs|
    ensures Write(op2, jobs, m).registry == RegisterAll(EmptyRegistry, AllCalls(op2, jobs, m))
  {
    WriteThreads(op2, jobs, m);
    RegisterEachConcat(EmptyRegistry, JobCallLists(op2, jobs, m));
  }

  /** The driver's registry is each job's calls registered on top of the
      registry the jobs before it left. */
  lemma {:induction false} WriteThreads(op2: Op2Model, jobs: seq<Job>, m: nat)
    requires JobsWellFormed(op2, jobs) && m <= |jobs|
    ensures Write(op2, jobs, m).registry == RegisterEach(EmptyRegistry, JobCallLists(op2, jobs, m))
    decreases m
  {
    if m > 0 {
      WriteThreads(op2, jobs, m - 1);
      WriteStepRegistry(op2, jobs, m);
      var css := JobCallLists(op2, jobs, m);
      assert css[..m - 1] == JobCallLists(op2, jobs, m - 1);
    }
  }

  /** Job m - 1's get_id calls take the driver's registry from before it to
      after it. */
  lemma WriteStepRegistry(op2: Op2Model, jobs: seq<Job>, m: nat)
    requires JobsWellFormed(op2, jobs) && 0 < m <= |jobs|
    ensures Write(op2, jobs, m).registry == RegisterAll(Write(op2, jobs, m - 1).registry, JobCalls(op2, jobs[m - 1]))
  {
    WriteJobRegistry(op2, Write(op2, jobs, m - 1), jobs[m - 1]);
  }

  /** One job's get_id calls take the registry from before to after it. */
  lemma WriteJobRegistry(op2: Op2Model, prev: Output, j: Job)
    requires DictWellFormed(j.cat, Dict(op2, j.attr))
    ensures WriteJob(op2, prev, j).registry == RegisterAll(prev.registry, JobCalls(op2, j))
  {
    var dict := Dict(op2, j.attr);
    if |dict| == 0 {
      EmptySchedule(j.cat, dict);
      assert CallsOf(Schedule(j.cat, dict)) == [];
    } else {
      BuildTableShape(j.cat, dict, prev.registry);
    }
  }

  /** After the whole conversion the registry numbers exactly the distinct
      (subcase, step) keys of all get_id calls, 1, 2, ... in first-seen
      order, each row holding the metadata of that key's first call. */
  lemma WriteDescribes(op2: Op2Model, jobs: seq<Job>)
    requires JobsWellFormed(op2, jobs)
    ensures Describes(Write(op2, jobs, |jobs|).registry, FirstCalls(AllCalls(op2, jobs, |jobs|)))
  {
    WriteRegistry(op2, jobs, |jobs|);
    FirstSeenOrder(AllCalls(op2, jobs, |jobs|));
  }

  /** First-seen numbering across all tables: the DOMAINS table is written
      iff some (subcase, step) was visited, and then row i is the row
      get_id built for the i-th distinct (subcase, step) the whole
      conversion asked about, with ID i + 1. */
  lemma FileDomainsFirstSeen(op2: Op2Model, jobs: seq<Job>)
    requires JobsWellFormed(op2, jobs)
    ensures var f := WriteFile(op2, jobs);
            var fc := FirstCalls(AllCalls(op2, jobs, |jobs|));
            && (DomainsPath in f <==> |fc| > 0)
            && (DomainsPath in f ==>
                  && f[DomainsPath].DomainTable?
                  && |f[DomainsPath].domains| == |fc|
                  && forall i :: 0 <= i < |fc| ==>
                       f[DomainsPath].domains[i] == NewRecord(i + 1, fc[i].key.subcase, fc[i].key.itime, fc[i].meta))
  {
    var calls := AllCalls(op2, jobs, |jobs|);
    FileDomainsContent(op2, jobs);
    WriteRegistry(op2, jobs, |jobs|);
    FirstSeenOrder(calls);
  }

  /** The plan has distinct paths, so all of the above holds for
      write_msc_h5 itself. */
  lemma PlanDistinct()
    ensures DistinctPaths(Plan())
  {
    PlanPathsDistinct();
  }
}
